=== FILE: README.md ===
# A stop-and-wait file transfer, modelled in Dafny

This project models the transfer engine of a small TFTP-style file transfer
over UDP, plus the fault-injecting relay used to exercise it.

**One transfer session.** A session is the record of the engine's fields:
- the peer's address and port;
- the block number;
- the session-wide retry counter;
- the last message sent;
- the two most recent inbound messages.

**Execution model.** Every operation is a pure function on an `Engine`: a
session plus a script of inbound events. Each event is a `Timeout` or a
`Packet(address, port, message)`, where an unreadable datagram has no message.
An operation consumes events from the script. It returns a `Run`: the new
engine, the actions performed (`Wait(timeout)`, `Send(message, resend)`,
`SendError(text)`) and a value.

**Modules:**
- `Net` and `Messages`: the message record, the opcodes, the protocol
  constants and the error texts.
- `Transport`: the session, `receiveMessage` and `sendMessage`.
  - `receiveMessage`: learn the peer on first contact, filter other sources,
    abort on an ERROR message, roll the inbound history.
  - `sendMessage`: refuse a message whose encoding is over 1200 bytes.
- `Sender`: `sendFile`.
  - Split the file into 1000-byte blocks.
  - The acceptance wait after a write request: up to 5 waits, 50 ms doubling.
  - The ACK wait per block: up to 10 waits of 50 ms, with the
    storm-avoidance rule that absorbs every fifth failure without resending.
- `Receiver`: `receiveFile`.
  - The optional ACK 0.
  - The DATA wait: up to 5 waits of 100 ms, resending a lost read request or
    a repeated write request's ACK.
  - Duplicate suppression, an ACK for every block, and the closing wait.
- `Commands`: `sendCommand` for `put`/`get`, and `getCommand`.
- `Relay`: one iteration of the relay loop, driven by the random draw as an
  input.

`SenderProps`, `ReceiverProps` and `CommandsProps` hold the lemmas that relate
several calls.

**The encoding size.** The size of a message's protobuf encoding is the
parameter `size: Message -> nat`. Every property holds for every encoder.
The properties that need an ACK to fit in a packet say so with
`AcksFit(size)`.

## Model

| member | source | states |
|---|---|---|
| Transport.Receive | app/TFTP.java:359-405 | One receive consumes one event and waits with the given timeout. It returns a message iff the event is a datagram from the peer (or the first datagram at all), readable, and not an ERROR. In that case the message becomes the current inbound one and the previous current one becomes the last. It aborts iff the peer sent an ERROR. It sends an error packet back iff the datagram is from the peer and unreadable. Nothing else changes the inbound history or the counters. |
| Transport.FirstContactLearnsPeer | app/TFTP.java:377-380 | With no peer known, the source of the first datagram becomes the peer. |
| Transport.ForeignDatagramIgnored | app/TFTP.java:381-382 | Once the peer is known, a datagram from any other address or port changes nothing and yields no message. |
| Transport.RollKeepsTwoMostRecent | app/TFTP.java:396-401 | After two receptions the current message is the second and the last is the first. |
| Transport.SendMessage | app/TFTP.java:331-352 | A message is sent iff its encoding is at most 1200 bytes. A send records the message as the last sent. A refused send leaves the engine unchanged and sends an error naming the size. |
| Transport.Resend | app/TFTP.java:172-173 | Resending the last message succeeds iff it fits, changes no state, and counts as a resend, not a new message. |
| Sender.ChunksShape | app/TFTP.java:182-196 | A file of N bytes is cut into N/1000 + 1 blocks. All but the last hold exactly 1000 bytes and the last fewer (empty when N is a multiple of 1000). Together they concatenate to the file. |
| Sender.DataBlocksNumbered | app/TFTP.java:195-196 | The j-th DATA message sent after block number b carries block number b + 1 + j and the j-th chunk. |
| Sender.AcceptTimeoutPower | app/TFTP.java:169 | The acceptance wait's i-th timeout is 50 times 2 to the power i. |
| Sender.AcceptWaitsDouble | app/TFTP.java:164-169 | The five acceptance timeouts are 50, 100, 200, 400 and 800 ms. |
| Sender.KeptPeriod | app/TFTP.java:210-213 | Any run of 5q consecutive failed ACK waits resends exactly 4q times, wherever the retry counter starts. |
| Sender.KeptFive | app/TFTP.java:210-213 | Five consecutive failures resend exactly four times, whatever the retry counter's value. |
| Sender.AwaitAccept | app/TFTP.java:162-178 | The acceptance wait never changes the last message sent or the block number and sends no new message. It succeeds only on an ACK carrying the current block number. When such an ACK from an admitted source comes next, it succeeds after one wait of the attempt's timeout, consuming just that event. When exhausted it ends with "Ack never received". |
| Sender.AwaitAck | app/TFTP.java:201-217 | The ACK wait succeeds only on an ACK carrying the block just sent and sends no new message. When that ACK from an admitted source comes next, it succeeds after one 50 ms wait, consuming just that event. When exhausted it ends with "Ack never received". |
| Sender.SendChunks | app/TFTP.java:181-221 | The data loop's new messages are always a prefix of the file's numbered DATA blocks. On completion they are all of them, and the block number has advanced by their count. |
| Sender.SendFile | app/TFTP.java:156-229 | A completed `sendFile` has sent exactly the file's DATA blocks, numbered on from the starting block number, as new messages. |
| SenderProps.AckWaitTally | app/TFTP.java:201-217 | In the ACK wait every failure adds one to the retry counter and every wait lasts 50 ms. There are at most 10 waits. The block is resent exactly #{j in [r, r+k) : j % 5 != 4} times for k failures starting at counter r. Exhaustion means exactly 10 failures. |
| SenderProps.ExhaustedAckWaitResendsEight | app/TFTP.java:201-217 | An exhausted ACK wait waited 10 times, added 10 to the retry counter and resent the block exactly 8 times. |
| SenderProps.AckWaitOutcome | app/TFTP.java:201-217 | When the block fits, its resends are never refused. Under total loss the ACK wait is exhausted. |
| SenderProps.AcceptWaitTally | app/TFTP.java:164-178 | The acceptance wait's timeouts follow the doubling schedule, with at most 5 waits. Every failure resends the request and counts one retry, with no storm skip. Exhaustion means the request was resent once per attempt. |
| SenderProps.ExhaustedAcceptWaitsDoubling | app/TFTP.java:164-178 | An exhausted acceptance wait waited 50, 100, 200, 400 and 800 ms and resent the request 5 times. |
| SenderProps.AcceptWaitOutcome | app/TFTP.java:164-178 | When the request fits, its resends are never refused. Under total loss the acceptance wait is exhausted. |
| SenderProps.SendFileDelivers | app/TFTP.java:182-221 | A completed `sendFile` sent N/1000 + 1 DATA messages with consecutive block numbers. All but the last carry 1000 bytes and the last fewer. Their payloads concatenate to the file. |
| SenderProps.TotalLossStopsAfterFirstBlock | app/TFTP.java:195-217 | Under total loss the data loop sends the next block (block 1 of a fresh transfer) once as a new message. It then ends with "Ack never received" and sends no further block. |
| SenderProps.AckArrives | app/TFTP.java:206-216 | An ACK of the current block from an admitted source ends the ACK wait after one 50 ms wait. The ACK becomes the current inbound message and the peer is learned. |
| SenderProps.AcceptArrives | app/TFTP.java:169-177 | An ACK of the current block from an admitted source ends the acceptance wait after one wait of that attempt's timeout, with the same effect on the session. |
| SenderProps.LosslessStep | app/TFTP.java:184-217 | When the next block fits and its ACK comes next from an admitted source, the block is sent once and acknowledged after one wait. The loop then goes on with the rest of the file, or completes after a short block. |
| SenderProps.LosslessSend | app/TFTP.java:184-221 | When every block fits and exactly the ACKs of the file's blocks arrive, in order, from an admitted source, the data loop completes and consumes every ACK. Its actions are each block sent once as a new message, each followed by one 50 ms wait. |
| SenderProps.LosslessSendFile | app/TFTP.java:156-221 | `sendFile` on lossless delivery completes. The delivery is ACK 0 first when this side issued a write request, then the ACKs of the file's blocks. Its actions are one wait for the ACK 0 when there is one, then each block sent once and waited for once, in order. |
| Receiver.AwaitData | app/TFTP.java:251-273 | The DATA wait sends no new message and keeps the last message sent. It ends with a DATA message that is now the current inbound message, or with "Receiver timeout" when exhausted. |
| Receiver.AwaitClose | app/TFTP.java:291-309 | The closing wait never ends with exhaustion: running out of attempts is a normal end. |
| Receiver.ReceiveBlocks | app/TFTP.java:249-289 | The data loop only appends: the file written before it is a prefix of the file written after it. When it gives up waiting for a block, its last action is the "Receiver timeout" error. |
| Receiver.ReceiveWith | app/TFTP.java:232-289 | A side that has sent nothing yet first sends an ACK with the current block number, when it fits. When it does not fit, the size error is the only action, the engine is unchanged and nothing is written. Giving up on a block ends with "Receiver timeout". |
| Receiver.ReceiveFile | app/TFTP.java:232-289 | As written, `receiveFile` on a side that has sent nothing first sends ACK `blockNumber` when it fits. When it does not fit, it ends refused with nothing written. Giving up on a block ends with "Receiver timeout". |
| ReceiverProps.DataWaitTally | app/TFTP.java:251-273 | The DATA wait makes at most 5 waits of 100 ms, exactly 5 when it gives up. When the last message fits, a resend is never refused. |
| ReceiverProps.ExhaustedDataWait | app/TFTP.java:251-256 | A DATA wait that gives up waited 100 ms five times and sent "Receiver timeout". |
| ReceiverProps.SilentDataWait | app/TFTP.java:256-260 | Under total loss the DATA wait gives up. It resends a read request after every wait, and any other last message never. |
| ReceiverProps.SilentClose | app/TFTP.java:291-301 | With nothing arriving, the closing wait waits out its remaining attempts, sends nothing and ends normally. |
| ReceiverProps.CloseAcknowledgesRepeat | app/TFTP.java:296-308 | A DATA block arriving in the closing wait is acknowledged with its own number, and the transfer ends normally. |
| ReceiverProps.DataArrives | app/TFTP.java:256-272 | A DATA block from the peer ends the DATA wait at once, after one wait, and becomes the current inbound message. |
| ReceiverProps.OtherIgnored | app/TFTP.java:266-269 | A non-DATA, non-ERROR message from the peer is ignored: the wait moves on to its next attempt. The one exception is a write request while ACK 0 is the last message sent. |
| ReceiverProps.RepeatedRequestResent | app/TFTP.java:261-265 | While ACK 0 is the last message sent, a write request from the peer resends ACK 0 as a resend. It adds one to the retry counter, and the wait moves on to its next attempt with that request as the current inbound message. If ACK 0 does not fit, the receiver stops. |
| ReceiverProps.NextBlock | app/TFTP.java:275-288 | Every block, repeat or not, is acknowledged with its own number. A block that keeps the loop going (a repeat or a full block) leads to the next iteration, with the file extended unless the block was a repeat. |
| ReceiverProps.LastBlock | app/TFTP.java:249-295 | A short new block followed by silence is written, acknowledged, and ends the transfer normally. |
| ReceiverProps.ShortBlockCloses | app/TFTP.java:249-292 | A short new block ends the data loop whatever follows it. The block is written and ACKed, then only the closing wait runs, so nothing more is written and the transfer never ends in "Receiver timeout". This is the stop direction partnering NextBlock. |
| ReceiverProps.RedeliveryIdempotent | app/TFTP.java:275-282 | The same block received twice in a row, under either duplicate rule, is written once, and the second copy keeps the loop going. |
| ReceiverProps.RepeatAbsorbed | app/TFTP.java:275-288 | A repeat of the block just acknowledged only waits once and sends its ACK again. The loop then continues from the same session, with the block recorded as the previous inbound message, and the file unchanged. |
| ReceiverProps.AwaitDataIgnoresLast | app/TFTP.java:251-273 | The DATA wait does not look at the previous inbound message. Two waits whose sessions differ only there take the same actions and end the same way. Once a block arrives their sessions are equal. |
| ReceiverProps.ReceiveBlocksIgnoresLast | app/TFTP.java:249-289 | Two data loops whose sessions differ only in the previous inbound message write the same file, end the same way and take the same actions. |
| ReceiverProps.RepeatChangesNothing | app/TFTP.java:275-288 | A repeat of the block just acknowledged costs one wait and one repeated ACK. Otherwise the transfer writes the same file, ends the same way and takes the same actions as without the repeat. |
| ReceiverProps.ShortLastBlock | app/TFTP.java:276-289 | A short new block followed by silence is the last thing written. |
| ReceiverProps.LosslessBlocks | app/TFTP.java:249-289 | Lossless in-order delivery of a byte string's numbered DATA blocks makes the data loop write exactly that string, acknowledge every block once in order, and end normally. |
| ReceiverProps.LosslessReceive | app/TFTP.java:232-289 | `receiveFile` on lossless in-order delivery of a file's blocks writes exactly the file and ends normally. It sends, as new messages, ACK 0 first when it accepted a write request, then one ACK per block in order. |
| ReceiverProps.InterleavedRepeat | app/TFTP.java:276 | After a full block d, a message q, a second copy of d and a short last block arrive. The second copy is written again iff blocks are compared with the previous inbound message. |
| ReceiverProps.RepeatWrittenTwice | app/TFTP.java:276 | As written, that second copy of d is appended again before the last block. |
| ReceiverProps.RepeatWrittenOnce | app/TFTP.java:276 | Compared with the previous DATA block, the second copy is not written, and only the last block follows. |
| Commands.IssueRequest | app/TFTP.java:76-116 | `sendCommand` resets the block number and the inbound history. It sends the request iff it fits, and then the request is the last message sent. |
| Commands.AwaitRequest | app/TFTP.java:126-153 | `getCommand` returns a request only when the current inbound message is that request, with its direction and file name. The counters are unchanged. Treating a null receive as "go on waiting" never crashes. |
| Commands.GetCommand | app/TFTP.java:119-154 | `getCommand` resets the block number and the last message sent, and keeps a peer address already known. A request it returns is the current inbound message, with its direction and file name. |
| CommandsProps.IssuedRequestRole | app/TFTP.java:160-162 | After `put` the issuing side waits for acceptance before sending data. After `get` it does not, and its last message is the read request. |
| CommandsProps.OtherSkipped | app/TFTP.java:131-144 | A readable message from an admitted source that is neither a request nor an ERROR is skipped. The wait goes on after one receive, with that message as the current inbound one. |
| CommandsProps.RequestServed | app/TFTP.java:133-148 | A request from an admitted source ends the wait at once, after one receive, with its direction and file name. |
| CommandsProps.ServesFirstRequest | app/TFTP.java:126-153 | On messages from an admitted source, the wait answers with the first request among them. It answers "no command" when an ERROR comes first, and blocks when neither comes. It receives once per message up to and including that one. |
| CommandsProps.GetCommandServesFirstRequest | app/TFTP.java:119-154 | `getCommand`, on messages from the known peer's host (or from any host when none is known), returns the first request among them, or "no command" when an ERROR comes first. |
| CommandsProps.LostReadRequest | app/TFTP.java:256-260 | A `get` whose request is always lost resends it after each of the 5 waits, then gives up having written nothing. |
| CommandsProps.AcceptedRequestRole | app/TFTP.java:121-125 | The side that accepted a request has sent nothing and is at block 0. Receiving, it first sends ACK 0; sending, it skips the acceptance wait. |
| CommandsProps.NewHostCrashesServer | app/TFTP.java:119-136 | As written, a request from a host other than the previous peer makes `getCommand` dereference null. |
| CommandsProps.UnreadableDatagramCrashesServer | app/TFTP.java:133-136 | As written, an unreadable datagram makes `getCommand` dereference null. |
| CommandsProps.CorrectedServesNewHost | app/TFTP.java:119-154 | Corrected, the first request from any host is served, and that host becomes the peer. |
| CommandsProps.CorrectedSkipsUnreadable | app/TFTP.java:119-154 | Corrected, an unreadable datagram is answered with an error packet and the wait goes on. |
| Relay.Received | FaultyNetworkSimulator/CommunicationThread.java:30-33 | The relay sees at most the first 1024 bytes of a datagram, and all of a datagram that fits. |
| Relay.Forward | FaultyNetworkSimulator/CommunicationThread.java:35-51 | The first datagram's port becomes the client port, and the server port and drop chance never change. A datagram is forwarded iff its draw is at least the drop chance. It carries the payload as received and is addressed to its sender's host. Its port is the server port when it came from the client port, and the client port otherwise. |
| Relay.Run | FaultyNetworkSimulator/CommunicationThread.java:28-56 | Over a run, the relay forwards at most one datagram per datagram received, and the server port and drop chance never change. After any datagram, the client port is known. It is the first datagram's port when it was not known before, and unchanged otherwise. |
| Relay.RunAfterFirst | FaultyNetworkSimulator/CommunicationThread.java:36-51 | Once the client port is known the relay never changes. It forwards exactly the datagrams whose draw is not below the drop chance, in order, each routed to the other side. |
| Relay.RunFromStart | FaultyNetworkSimulator/CommunicationThread.java:36-39 | From the start, the first datagram's port is the client port for good, and the run forwards as in `RunAfterFirst`. |
| Relay.DropAll | FaultyNetworkSimulator/CommunicationThread.java:45-46 | With a drop chance of 100 or more the relay forwards nothing, from any state. |
| Relay.DropNone | FaultyNetworkSimulator/CommunicationThread.java:45-51 | With a drop chance of 0 or less the relay forwards one datagram per datagram received. Once the client port is known, they are exactly the received datagrams routed to the other side. |
| Relay.RelayedPayloads | FaultyNetworkSimulator/CommunicationThread.java:49 | Each forwarded datagram carries the payload as received and is addressed to its sender's host, at the port of the other side. |

## Left out

- **Protobuf encoding and decoding.** The encoded size is the parameter `size`, and a datagram either carries a message or is unreadable. No encoding round trip is stated.
- **Sockets, `setSoTimeout` and wall-clock time.** A receive takes the next scripted event, and a timeout is a recorded `Wait`.
  - An `IOException` on send or receive is not modelled.
  - The 1200-byte receive buffer is not modelled; an oversize datagram is simply a datagram.
- **File streams and their `IOException`s.** The source file is an input sequence and the destination an accumulated sequence. `available()` is taken to be the whole file.
- **`printProgression`, console output and `PRINT_TRAFIC`.**
- **`closeConnection`/`System.exit`, the empty `error` stub, and `sendCommand`'s parsing.** Only a parsed `put` or `get` is modelled. The `quit` and unknown-command paths are not.
- **`FTClient`, `FTServer`, the relay's launcher and `CommInterface`.** Their shells and dispatch are not part of this model.
- **Java `int` overflow.** The block number and the retry counter are unbounded.
- **`java.util.Random` and threads.** The relay's draw is an input in [0, 100). The relay's exception handler is not modelled.
- **`getCommand`'s blocking receive.** It never times out, so a `Timeout` event in its script is skipped. An exhausted script stands for blocking forever and is reported as `Blocked`.
- **The ERROR abort.** It is the `PeerAbort`/`PeerError` value, rather than a Java exception.
- Commands.AwaitRequest: states the request it returns and that the corrected variant never crashes. Which message it stops at, and the "no command" answer to an ERROR message, are stated by `CommandsProps.ServesFirstRequest` for readable messages from an admitted source.
- SendChunks: its contract states what a completed data loop sent. That in-order ACKs make it complete is stated by `SenderProps.LosslessSend`.
- SendFile: its contract states what a completed `sendFile` sent. That lossless delivery makes it complete is stated by `SenderProps.LosslessSendFile`.
- Receiver.AwaitClose: states only that the closing wait never ends in exhaustion. Its behaviour under silence and on a repeated block is stated by `ReceiverProps.SilentClose` and `ReceiverProps.CloseAcknowledgesRepeat`.
- ReceiverProps.LosslessReceive: requires that the message before the transfer is not itself block 1's number. Otherwise the duplicate check as written would drop the first block.

## Findings

| source | as written | input that shows it | evidently intended | confidence | as-written member | corrected member |
|---|---|---|---|---|---|---|
| app/TFTP.java:119-136 | `getCommand` resets the peer's port but not its address. It dereferences whatever `receiveMessage` returns, and that is null for a datagram from another address or an unreadable one. | A server that served host A, then receives a request from host B (or any unreadable datagram) | Forget the whole peer and keep waiting on null, discarding anything that is not a request | medium, not executed | CommandsProps.NewHostCrashesServer | CommandsProps.CorrectedServesNewHost |
| app/TFTP.java:276 | A block is a repeat when its number equals that of the previous inbound message of any kind. | Full block d, then a delayed copy of the write request (or any other message), then a second copy of d | Compare with the previous DATA block, so a block is never written twice | low, not executed | ReceiverProps.RepeatWrittenTwice | ReceiverProps.RepeatWrittenOnce |

`Commands.GetCommandCorrected` and `Receiver.ReceiveFileCorrected` are the
corrected operations. `CommandsProps.CorrectedSkipsUnreadable` and
`ReceiverProps.LosslessReceive` (which holds under either duplicate rule) are
further properties proved about them.

=== FILE: commands.dfy ===
/** Starting a transfer: `sendCommand` on the side that issues a request, and
    `getCommand` on the side that waits for one. Both reset the session; the
    issuing side then sends its request, the waiting side blocks until a
    request arrives. */
module Commands {
  import opened Net
  import opened Messages
  import opened Transport

  /** What `getCommand` hands to its caller. `Crashed` is the null dereference
      of the code as written; `Blocked` is a receive that never returns
      because the script has ended. */
  datatype Request =
    | Requested(d: Direction, fileName: string)
    | NoCommand
    | Blocked
    | Crashed

  /** How `getCommand` treats a receive that returns null: as written it
      dereferences it; corrected, it goes on waiting. */
  datatype NullHandling = Dereference | Skip

  // ---------------------------------------------------------------------------
  // sendCommand

  /** The reset both commands start with: a new transfer has no block number,
      no message sent and no inbound history. */
  function Reset(s: Session): Session
  {
    s.(blockNumber := 0, lastSent := None, current := None, last := None)
  }

  /** `sendCommand` for a parsed `put` or `get`: reset, then send the request. */
  function IssueRequest(e: Engine, size: Sizer, d: Direction, fileName: string): (r: Run<bool>)
    ensures r.value <==> size(RequestMessage(d, fileName)) <= MAX_PACKET_SIZE
    ensures r.engine.session.blockNumber == 0 && r.engine.session.current.None? && r.engine.session.last.None?
    ensures r.engine.session.lastSent == (if r.value then Some(RequestMessage(d, fileName)) else None)
    ensures Fresh(r.out) == (if r.value then [RequestMessage(d, fileName)] else [])
    ensures r.engine.script == e.script
  {
    SendMessage(Engine(Reset(e.session), e.script), size, RequestMessage(d, fileName), false)
  }

  // ---------------------------------------------------------------------------
  // getCommand

  /** The reset of `getCommand`: the peer's port is forgotten too (its
      address is not). */
  function ResetForRequest(s: Session): Session
  {
    Reset(s).(destPort := NO_PORT)
  }

  /** The direction a request message asks for, if it is a request. */
  function RequestDirection(m: Message): Option<Direction>
  {
    if m.opCode == WRQ then Some(Put) else if m.opCode == RRQ then Some(Get) else None
  }

  /** The wait for a request, the loop at app/TFTP.java:131-144, with
      RequestAfter for what one receive returned. A receive without deadline
      never times out, so a `Timeout` event of the script stands for nothing
      at all and is skipped. */
  function AwaitRequest(e: Engine, h: NullHandling): (r: Run<Request>)
    ensures h == Skip ==> r.value != Crashed
    ensures r.value.Requested? ==>
              && r.engine.session.current.Some?
              && RequestDirection(r.engine.session.current.value) == Some(r.value.d)
              && r.engine.session.current.value.fileName == r.value.fileName
    ensures SameCounters(r.engine.session, e.session)
    ensures e.session.destAddress.Some? ==> r.engine.session.destAddress == e.session.destAddress
    decreases |e.script|, 1
  {
    if |e.script| == 0 then Run(e, [], Blocked)
    else if e.script[0] == Timeout then AwaitRequest(Engine(e.session, e.script[1..]), h)
    else RequestAfter(Receive(e, 0), h)
  }

  /** The rest of one iteration of the wait once its receive returned `got`. */
  function RequestAfter(got: Run<Inbound>, h: NullHandling): (r: Run<Request>)
    requires got.value.Got? ==> got.engine.session.current == Some(got.value.m)
    ensures h == Skip ==> r.value != Crashed
    ensures r.value.Requested? ==>
              && r.engine.session.current.Some?
              && RequestDirection(r.engine.session.current.value) == Some(r.value.d)
              && r.engine.session.current.value.fileName == r.value.fileName
    ensures SameCounters(r.engine.session, got.engine.session)
    ensures got.engine.session.destAddress.Some? ==> r.engine.session.destAddress == got.engine.session.destAddress
    decreases |got.engine.script| + 1, 0
  {
    match got.value
    case PeerAbort(_) => Run(got.engine, got.out, NoCommand)
    case Nothing =>
      if h == Dereference then Run(got.engine, got.out, Crashed)
      else After(got.out, AwaitRequest(got.engine, h))
    case Got(m) =>
      match RequestDirection(m)
      case Some(d) => Run(got.engine, got.out, Requested(d, m.fileName))
      case None => After(got.out, AwaitRequest(got.engine, h))
  }

  /** `getCommand` as written: a new transfer at block 0 with nothing sent,
      still bound to the previous peer's address. */
  function GetCommand(e: Engine): (r: Run<Request>)
    ensures r.engine.session.blockNumber == 0 && r.engine.session.lastSent.None?
    ensures e.session.destAddress.Some? ==> r.engine.session.destAddress == e.session.destAddress
    ensures r.value.Requested? ==>
              && r.engine.session.current.Some?
              && RequestDirection(r.engine.session.current.value) == Some(r.value.d)
              && r.engine.session.current.value.fileName == r.value.fileName
  {
    AwaitRequest(Engine(ResetForRequest(e.session), e.script), Dereference)
  }

  /** The reset of a `getCommand` that forgets the previous peer entirely. */
  function ForgetPeer(s: Session): Session
  {
    Reset(s).(destAddress := None, destPort := NO_PORT)
  }

  /** `getCommand` that forgets the previous peer's address as well as its
      port, and goes on waiting when a receive returns null. */
  function GetCommandCorrected(e: Engine): (r: Run<Request>)
    ensures r.engine.session.blockNumber == 0 && r.engine.session.lastSent.None?
    ensures r.value != Crashed
    ensures r.value.Requested? ==>
              && r.engine.session.current.Some?
              && RequestDirection(r.engine.session.current.value) == Some(r.value.d)
              && r.engine.session.current.value.fileName == r.value.fileName
  {
    AwaitRequest(Engine(ForgetPeer(e.session), e.script), Skip)
  }
}

=== FILE: commands_props.dfy ===
/** Properties of starting a transfer: which role each side takes after its
    command, and how `getCommand` treats a datagram it cannot use. */
module CommandsProps {
  import opened Net
  import opened Messages
  import opened Transport
  import opened Sender
  import opened Receiver
  import opened ReceiverProps
  import opened Commands

  // ---------------------------------------------------------------------------
  // Roles

  /** After a `put` the issuing side waits for the acceptance of its write
      request before sending data; after a `get` it does not, and its last
      message is the read request it resends while no DATA arrives. */
  lemma IssuedRequestRole(e: Engine, size: Sizer, d: Direction, fileName: string)
    requires IssueRequest(e, size, d, fileName).value
    ensures var s := IssueRequest(e, size, d, fileName).engine.session;
      && (AwaitsAcceptance(s) <==> d == Put)
      && (d == Get ==> s.lastSent.value.opCode == RRQ)
  {
  }

  /** A `get` whose request and every resend of it are lost resends the
      request after each of its RECEIVE_ATTEMPTS waits, then gives up having
      written nothing. */
  lemma LostReadRequest(e: Engine, size: Sizer, fileName: string)
    requires IssueRequest(e, size, Get, fileName).value
    requires Silent(e.script)
    ensures var started := IssueRequest(e, size, Get, fileName).engine;
      && ReceiveFile(started, size).value == Receipt([], Aborted(Exhausted))
      && Resends(ReceiveFile(started, size).out) == RECEIVE_ATTEMPTS
  {
    var started := IssueRequest(e, size, Get, fileName).engine;
    var waited := AwaitData(started, size, 0);
    SilentDataWait(started, size, 0);
    assert ReceiveFile(started, size) == ReceiveBlocks(started, size, AgainstLastInbound, Sink([], None));
    assert ReceiveBlocks(started, size, AgainstLastInbound, Sink([], None)) == Run(waited.engine, waited.out, Receipt([], Aborted(Exhausted)));
  }

  /** The side that accepted a request has sent nothing and is at block 0:
      when receiving it first acknowledges the write request with ACK 0,
      and when sending it sends DATA without waiting for an acceptance. */
  lemma AcceptedRequestRole(e: Engine, size: Sizer)
    requires GetCommand(e).value.Requested?
    requires size(AckMessage(0)) <= MAX_PACKET_SIZE
    ensures var s := GetCommand(e).engine;
      && !AwaitsAcceptance(s.session)
      && ReceiveFile(s, size).out[0] == Send(AckMessage(0), false)
  {
  }

  // ---------------------------------------------------------------------------
  // A datagram getCommand cannot use

  /** As written, `getCommand` keeps the previous peer's address: a request
      from any other host is filtered out, `receiveMessage` returns null and
      `getCommand` dereferences it. */
  lemma NewHostCrashesServer(e: Engine, a: Address, p: int, m: Message)
    requires e.session.destAddress.Some? && e.session.destAddress.value != a
    requires RequestDirection(m).Some?
    requires e.script == [Packet(a, p, Some(m))]
    ensures GetCommand(e).value == Crashed
  {
    var e0 := Engine(ResetForRequest(e.session), e.script);
    assert e0.script[0] != Timeout;
    assert Receive(e0, 0).value == Nothing;
    assert GetCommand(e) == RequestAfter(Receive(e0, 0), Dereference);
  }

  /** As written, an unreadable datagram also makes `getCommand` dereference null. */
  lemma UnreadableDatagramCrashesServer(e: Engine, a: Address, p: int)
    requires e.script == [Packet(a, p, None)]
    ensures GetCommand(e).value == Crashed
  {
    var e0 := Engine(ResetForRequest(e.session), e.script);
    assert e0.script[0] != Timeout;
    assert Receive(e0, 0).value == Nothing;
    assert GetCommand(e) == RequestAfter(Receive(e0, 0), Dereference);
  }

  /** Corrected, the first request from any host is served, whoever the
      previous peer was, and that host becomes the peer. */
  lemma CorrectedServesNewHost(e: Engine, a: Address, p: int, m: Message, rest: seq<Event>)
    requires RequestDirection(m).Some?
    requires e.script == [Packet(a, p, Some(m))] + rest
    ensures GetCommandCorrected(e).value == Requested(RequestDirection(m).value, m.fileName)
    ensures FromPeer(GetCommandCorrected(e).engine.session, a, p)
  {
    var e0 := Engine(ForgetPeer(e.session), e.script);
    assert e0.script[0] == Packet(a, p, Some(m)) && NextEvent(e0.script) == e0.script[0];
    var got := Receive(e0, 0);
    assert FromPeer(got.engine.session, a, p) && got.value == Got(m);
    assert GetCommandCorrected(e) == RequestAfter(got, Skip);
  }

  /** Corrected, an unreadable datagram is reported to its sender and skipped. */
  lemma CorrectedSkipsUnreadable(e: Engine, a: Address, p: int, rest: seq<Event>)
    requires e.script == [Packet(a, p, None)] + rest
    ensures var s := ForgetPeer(e.session).(destAddress := Some(a), destPort := p);
      GetCommandCorrected(e) == After([Wait(0), SendError(UnreadablePacket)], AwaitRequest(Engine(s, rest), Skip))
  {
    var e0 := Engine(ForgetPeer(e.session), e.script);
    assert e0.script[0] == Packet(a, p, None) && NextEvent(e0.script) == e0.script[0] && Rest(e0.script) == rest;
    var got := Receive(e0, 0);
    assert got.engine == Engine(ForgetPeer(e.session).(destAddress := Some(a), destPort := p), rest);
    assert got.out == [Wait(0), SendError(UnreadablePacket)] && got.value == Nothing;
    assert GetCommandCorrected(e) == RequestAfter(got, Skip);
  }

  // ---------------------------------------------------------------------------
  // Waiting for a request

  /** A readable message from an admitted source that is neither a request
      nor an ERROR is skipped: one wait, and the wait goes on with the
      message in the inbound history. */
  lemma OtherSkipped(e: Engine, h: NullHandling, a: Address, p: int, q: Message)
    requires NextEvent(e.script) == Packet(a, p, Some(q)) && Admits(e.session, a, p)
    requires q.opCode != ERROR && RequestDirection(q).None?
    ensures AwaitRequest(e, h)
         == After([Wait(0)], AwaitRequest(Engine(Roll(Learn(e.session, a, p), q), Rest(e.script)), h))
  {
    var got := Receive(e, 0);
    assert got.engine == Engine(Roll(Learn(e.session, a, p), q), Rest(e.script));
    assert got.value == Got(q) && got.out == [Wait(0)];
  }

  /** A request from an admitted source ends the wait at once with its
      direction and file name. */
  lemma RequestServed(e: Engine, h: NullHandling, a: Address, p: int, m: Message)
    requires NextEvent(e.script) == Packet(a, p, Some(m)) && Admits(e.session, a, p)
    requires RequestDirection(m).Some?
    ensures AwaitRequest(e, h)
         == Run(Engine(Roll(Learn(e.session, a, p), m), Rest(e.script)), [Wait(0)],
                Requested(RequestDirection(m).value, m.fileName))
  {
    var got := Receive(e, 0);
    assert got.engine == Engine(Roll(Learn(e.session, a, p), m), Rest(e.script));
    assert got.value == Got(m) && got.out == [Wait(0)];
  }

  /** The position of the first request or ERROR among `ms`, or |ms| when
      there is none. */
  function FirstStop(ms: seq<Message>): (k: nat)
    ensures k <= |ms|
    ensures forall j :: 0 <= j < k ==> ms[j].opCode != ERROR && RequestDirection(ms[j]).None?
    ensures k < |ms| ==> ms[k].opCode == ERROR || RequestDirection(ms[k]).Some?
  {
    if |ms| == 0 || ms[0].opCode == ERROR || RequestDirection(ms[0]).Some? then 0
    else 1 + FirstStop(ms[1..])
  }

  /** What `getCommand` answers when the messages at the first stop are all
      that count: the request there, "no command" for an ERROR, and a wait
      that never ends when there is no stop. */
  function Answer(ms: seq<Message>, k: nat): Request
    requires k <= |ms|
  {
    if k == |ms| then Blocked
    else match RequestDirection(ms[k])
      case Some(d) => Requested(d, ms[k].fileName)
      case None => NoCommand
  }

  /** Messages `ms` from an admitted source: the wait skips every message
      before the first request or ERROR, waiting once for each, and answers
      with that request (or "no command" for the ERROR). */
  lemma {:induction false} ServesFirstRequest(s: Session, h: NullHandling, a: Address, p: int, ms: seq<Message>)
    requires Admits(s, a, p)
    ensures var r := AwaitRequest(Engine(s, Deliver(a, p, ms)), h);
      && r.value == Answer(ms, FirstStop(ms))
      && |r.out| == FirstStop(ms) + (if FirstStop(ms) < |ms| then 1 else 0)
    decreases |ms|
  {
    var e := Engine(s, Deliver(a, p, ms));
    if |ms| > 0 {
      DeliverHead(a, p, ms);
      var m := ms[0];
      if m.opCode == ERROR {
        var got := Receive(e, 0);
        assert got.value == PeerAbort(m.errMsg) && got.out == [Wait(0)];
      } else if RequestDirection(m).Some? {
        RequestServed(e, h, a, p, m);
      } else {
        var s1 := Roll(Learn(s, a, p), m);
        OtherSkipped(e, h, a, p, m);
        ServesFirstRequest(s1, h, a, p, ms[1..]);
        FirstStopTail(ms);
      }
    }
  }

  lemma FirstStopTail(ms: seq<Message>)
    requires |ms| > 0 && ms[0].opCode != ERROR && RequestDirection(ms[0]).None?
    ensures FirstStop(ms) == 1 + FirstStop(ms[1..])
    ensures Answer(ms, FirstStop(ms)) == Answer(ms[1..], FirstStop(ms[1..]))
  {
    var k := FirstStop(ms[1..]);
    if k < |ms[1..]| {
      assert ms[1..][k] == ms[k + 1];
    }
  }

  /** `getCommand` on messages from its previous peer's host (or from any
      host when none is known) answers the first request or ERROR among them,
      whatever came before. */
  lemma GetCommandServesFirstRequest(e: Engine, a: Address, p: int, ms: seq<Message>)
    requires e.script == Deliver(a, p, ms)
    requires e.session.destAddress.None? || e.session.destAddress == Some(a)
    ensures GetCommand(e).value == Answer(ms, FirstStop(ms))
  {
    ServesFirstRequest(ResetForRequest(e.session), Dereference, a, p, ms);
  }
}

=== FILE: messages.dfy ===
/** The wire message of the transfer protocol and the engine's tunables.
    The protobuf encoding is not modelled: a message is a record of its fields,
    and an unset field carries protobuf's default value ("" / 0 / empty). */
module Messages {
  import opened Net

  /** Largest file chunk carried by one DATA message. */
  const MAX_DATA_SIZE: nat := 1000
  /** Largest encoded message the engine agrees to put on the wire. */
  const MAX_PACKET_SIZE: nat := 1200
  /** Base timeout of the sender's waits. */
  const TIMEOUT_SEND: nat := 50
  /** Timeout of the receiver's waits. */
  const TIMEOUT_RECEIVE: nat := 100

  /** Index of the first attempt of every wait loop. */
  const FIRST_ATTEMPT: nat := 0
  /** Waits for the ACK 0 that accepts a write request. */
  const ACCEPT_ATTEMPTS: nat := 5
  /** Waits for the ACK of one DATA block. */
  const SEND_ATTEMPTS: nat := 10
  /** Waits for a DATA block, and again in the closing wait. */
  const RECEIVE_ATTEMPTS: nat := 5
  /** One failed ACK wait out of every STORM_PERIOD is absorbed without a resend. */
  const STORM_PERIOD: nat := 5

  datatype OpCode = RRQ | WRQ | DATA | ACK | ERROR

  datatype Message = Message(opCode: OpCode, fileName: string, blockNum: int, data: seq<byte>, errMsg: string)

  /** The two requests a client can issue: `put` writes to the peer, `get` reads from it. */
  datatype Direction = Put | Get

  /** The texts the engine puts in the ERROR messages it sends. */
  datatype ErrorText =
    | AckNeverReceived
    | ReceiverTimeout
    | PacketTooLarge(size: nat)
    | UnreadablePacket

  function RequestCode(d: Direction): OpCode
  {
    match d
    case Put => WRQ
    case Get => RRQ
  }

  function RequestMessage(d: Direction, fileName: string): Message
  {
    Message(RequestCode(d), fileName, 0, [], "")
  }

  function DataMessage(n: int, bytes: seq<byte>): Message
  {
    Message(DATA, "", n, bytes, "")
  }

  function AckMessage(n: int): Message
  {
    Message(ACK, "", n, [], "")
  }

  predicate IsRequest(m: Message)
  {
    m.opCode == RRQ || m.opCode == WRQ
  }
}

=== FILE: net.dfy ===
/** Shared vocabulary: optional values, host identities and bytes. */
module Net {

  /** A value that may be absent; stands for a Java reference that may be null. */
  datatype Option<+T> = None | Some(value: T)

  /** The identity of a host (an `InetAddress`); only equality matters. */
  type Address = nat

  type byte = bv8
}

=== FILE: receiver.dfy ===
/** The receiving side of a transfer (`receiveFile`): the optional ACK 0,
    then one DATA block at a time, each written unless it repeats the block
    before it and each acknowledged, until a short block; then a closing wait
    that acknowledges one more DATA block if the last ACK was lost. */
module Receiver {
  import opened Net
  import opened Messages
  import opened Transport

  /** What a wait for a DATA block ends with. */
  datatype Arrival = Arrived(m: Message) | Halted(reason: Reason)

  /** What the receiver has written to the file, and how the transfer ended. */
  datatype Receipt = Receipt(written: seq<byte>, outcome: Outcome)

  /** Which message a DATA block is compared with to detect a repeat:
      the previous inbound message of any kind (`lastMessageReceived`, as
      the source does it), or the previous DATA block. */
  datatype DuplicateRule = AgainstLastInbound | AgainstLastData

  /** The file written so far and the last DATA block received. */
  datatype Sink = Sink(written: seq<byte>, lastData: Option<Message>)

  // ---------------------------------------------------------------------------
  // The wait for one DATA block: the loop at app/TFTP.java:251-273, one
  // attempt split over AwaitData, DataAfter, DataResent and DataRetry

  /** The wait for a DATA block, from attempt i on. A timeout after a read
      request resends the request; a repeated write request while ACK 0 is
      the last message sent resends ACK 0 and counts a retry; anything else
      that is not DATA is ignored. After RECEIVE_ATTEMPTS waits it gives up
      with "Receiver timeout". */
  function AwaitData(e: Engine, size: Sizer, i: nat): (r: Run<Arrival>)
    requires i <= RECEIVE_ATTEMPTS
    requires e.session.lastSent.Some?
    ensures r.engine.session.lastSent == e.session.lastSent
    ensures r.engine.session.blockNumber == e.session.blockNumber
    ensures |r.engine.script| <= |e.script|
    ensures Fresh(r.out) == []
    ensures r.value.Arrived? ==>
              && r.value.m.opCode == DATA
              && r.engine.session.current == Some(r.value.m)
              && |r.engine.script| < |e.script|
    ensures r.value == Halted(Exhausted) ==> EndsWith(r.out, SendError(ReceiverTimeout))
    decreases RECEIVE_ATTEMPTS - i, 3
  {
    if i == RECEIVE_ATTEMPTS then
      ProjectShort(SendError(ReceiverTimeout), SendError(ReceiverTimeout));
      Run(e, [SendError(ReceiverTimeout)], Halted(Exhausted))
    else DataAfter(Receive(e, TIMEOUT_RECEIVE), size, i)
  }

  /** Whether `got` is the repeated write request that shows ACK 0 was lost. */
  predicate RepeatedRequest(s: Session, got: Inbound)
    requires s.lastSent.Some?
  {
    s.lastSent.value.blockNum == 0 && got.Got? && got.m.opCode == WRQ
  }

  /** The rest of DATA-wait attempt i once its wait returned `got`. */
  function DataAfter(got: Run<Inbound>, size: Sizer, i: nat): (r: Run<Arrival>)
    requires i < RECEIVE_ATTEMPTS
    requires got.engine.session.lastSent.Some?
    requires Fresh(got.out) == []
    requires got.value.Got? ==> got.engine.session.current == Some(got.value.m)
    ensures r.engine.session.lastSent == got.engine.session.lastSent
    ensures r.engine.session.blockNumber == got.engine.session.blockNumber
    ensures |r.engine.script| <= |got.engine.script|
    ensures Fresh(r.out) == []
    ensures r.value.Arrived? ==>
              && r.value.m.opCode == DATA
              && r.engine.session.current == Some(r.value.m)
              && (got.value.Got? || |r.engine.script| < |got.engine.script|)
    ensures r.value == Halted(Exhausted) ==> EndsWith(r.out, SendError(ReceiverTimeout))
    decreases RECEIVE_ATTEMPTS - i, 2
  {
    var s := got.engine.session;
    if got.value.PeerAbort? then Run(got.engine, got.out, Halted(PeerError(got.value.errMsg)))
    else if got.value.Nothing? && s.lastSent.value.opCode == RRQ then
      DataResent(got.out, Resend(got.engine, size), size, i, false)
    else if RepeatedRequest(s, got.value) then
      DataResent(got.out, Resend(got.engine, size), size, i, true)
    else if got.value.Got? && got.value.m.opCode == DATA then Run(got.engine, got.out, Arrived(got.value.m))
    else DataRetry(got.out, got.engine, size, i)
  }

  /** The rest of DATA-wait attempt i once the last message was resent
      (`sent`) after the actions `pre`; `counts` says whether the resend
      counts a retry. */
  function DataResent(pre: seq<Out>, sent: Run<bool>, size: Sizer, i: nat, counts: bool): (r: Run<Arrival>)
    requires i < RECEIVE_ATTEMPTS
    requires sent.engine.session.lastSent.Some?
    requires Fresh(pre) == [] && Fresh(sent.out) == []
    ensures r.engine.session.lastSent == sent.engine.session.lastSent
    ensures r.engine.session.blockNumber == sent.engine.session.blockNumber
    ensures |r.engine.script| <= |sent.engine.script|
    ensures Fresh(r.out) == []
    ensures r.value.Arrived? ==>
              && r.value.m.opCode == DATA
              && r.engine.session.current == Some(r.value.m)
              && |r.engine.script| < |sent.engine.script|
    ensures r.value == Halted(Exhausted) ==> EndsWith(r.out, SendError(ReceiverTimeout))
    decreases RECEIVE_ATTEMPTS - i, 1
  {
    FreshAppend(pre, sent.out);
    if !sent.value then Run(sent.engine, pre + sent.out, Halted(Refused))
    else
      var n := sent.engine.session.numOfRetry;
      DataRetry(pre + sent.out, if counts then WithRetry(sent.engine, n + 1) else sent.engine, size, i)
  }

  /** The next DATA-wait attempt after the actions `pre` of attempt i. */
  function DataRetry(pre: seq<Out>, e: Engine, size: Sizer, i: nat): (r: Run<Arrival>)
    requires i < RECEIVE_ATTEMPTS
    requires e.session.lastSent.Some?
    requires Fresh(pre) == []
    ensures r.engine.session.lastSent == e.session.lastSent
    ensures r.engine.session.blockNumber == e.session.blockNumber
    ensures |r.engine.script| <= |e.script|
    ensures Fresh(r.out) == []
    ensures r.value.Arrived? ==>
              && r.value.m.opCode == DATA
              && r.engine.session.current == Some(r.value.m)
              && |r.engine.script| < |e.script|
    ensures r.value == Halted(Exhausted) ==> EndsWith(r.out, SendError(ReceiverTimeout))
    decreases RECEIVE_ATTEMPTS - i, 0
  {
    var next := AwaitData(e, size, i + 1);
    FreshAppend(pre, next.out);
    EndsWithAppend(pre, next.out, SendError(ReceiverTimeout));
    After(pre, next)
  }

  // ---------------------------------------------------------------------------
  // Writing a block

  /** Whether DATA block m, just received into session s, repeats the block
      before it under the given rule. */
  predicate Duplicate(rule: DuplicateRule, s: Session, sink: Sink, m: Message)
  {
    var prev := if rule == AgainstLastInbound then s.last else sink.lastData;
    prev.Some? && m.blockNum == prev.value.blockNum
  }

  /** The sink after DATA block m: its payload is appended unless it is a repeat. */
  function Absorb(rule: DuplicateRule, s: Session, sink: Sink, m: Message): Sink
  {
    Sink(if Duplicate(rule, s, sink, m) then sink.written else sink.written + m.data, Some(m))
  }

  /** The data loop goes on after block m unless m is a short new block. */
  predicate KeepsReceiving(rule: DuplicateRule, s: Session, sink: Sink, m: Message)
  {
    Duplicate(rule, s, sink, m) || |m.data| == MAX_DATA_SIZE
  }

  /** The result of a run of the closing wait `r` after the actions `pre`. */
  function Closed(pre: seq<Out>, r: Run<Outcome>, written: seq<byte>): Run<Receipt>
  {
    Run(r.engine, pre + r.out, Receipt(written, r.value))
  }

  // ---------------------------------------------------------------------------
  // The data loop and receiveFile: ReceiveBlocks, BlockArrived and BlockAcked
  // are the loop at app/TFTP.java:249-289

  /** The data loop: one block per iteration, until a short new block. Each
      iteration consumes at least one inbound event, which bounds the loop. */
  function ReceiveBlocks(e: Engine, size: Sizer, rule: DuplicateRule, sink: Sink): (r: Run<Receipt>)
    requires e.session.lastSent.Some?
    ensures sink.written <= r.value.written
    ensures r.value.outcome == Aborted(Exhausted) ==> EndsWith(r.out, SendError(ReceiverTimeout))
    decreases |e.script|, 2
  {
    BlockArrived(AwaitData(e, size, 0), size, rule, sink)
  }

  /** The rest of one iteration of the data loop once its wait returned `got`:
      write the block unless it is a repeat, and acknowledge it either way. */
  function BlockArrived(got: Run<Arrival>, size: Sizer, rule: DuplicateRule, sink: Sink): (r: Run<Receipt>)
    requires got.engine.session.lastSent.Some?
    requires got.value == Halted(Exhausted) ==> EndsWith(got.out, SendError(ReceiverTimeout))
    ensures sink.written <= r.value.written
    ensures r.value.outcome == Aborted(Exhausted) ==> EndsWith(r.out, SendError(ReceiverTimeout))
    decreases |got.engine.script| + (if got.value.Arrived? then 1 else 0), 1
  {
    match got.value
    case Halted(reason) => Run(got.engine, got.out, Receipt(sink.written, Aborted(reason)))
    case Arrived(m) =>
      var s := got.engine.session;
      BlockAcked(got.out, SendMessage(got.engine, size, AckMessage(m.blockNum), false), size, rule,
                 Absorb(rule, s, sink, m), KeepsReceiving(rule, s, sink, m))
  }

  /** The rest of one iteration once the block's ACK was sent (`sent`) after
      the actions `pre`: stop if it was refused, otherwise the next iteration
      when `more`, the closing wait when not. */
  function BlockAcked(pre: seq<Out>, sent: Run<bool>, size: Sizer, rule: DuplicateRule, sink: Sink, more: bool): (r: Run<Receipt>)
    requires sent.engine.session.lastSent.Some?
    ensures sink.written <= r.value.written
    ensures r.value.outcome == Aborted(Exhausted) ==> EndsWith(r.out, SendError(ReceiverTimeout))
    decreases |sent.engine.script| + 1, 0
  {
    if !sent.value then Run(sent.engine, pre + sent.out, Receipt(sink.written, Aborted(Refused)))
    else if more then
      var next := ReceiveBlocks(sent.engine, size, rule, sink);
      EndsWithAppend(pre + sent.out, next.out, SendError(ReceiverTimeout));
      After(pre + sent.out, next)
    else Closed(pre + sent.out, AwaitClose(sent.engine, size, 0), sink.written)
  }

  /** `receiveFile` with the given duplicate rule. A side that has sent
      nothing (the side that accepted a write request) first acknowledges
      with ACK `blockNumber`. */
  function ReceiveWith(e: Engine, size: Sizer, rule: DuplicateRule): (r: Run<Receipt>)
    ensures e.session.lastSent.None? ==>
              var ack := AckMessage(e.session.blockNumber);
              if size(ack) <= MAX_PACKET_SIZE then |r.out| > 0 && r.out[0] == Send(ack, false)
              else r == Run(e, [SendError(PacketTooLarge(size(ack)))], Receipt([], Aborted(Refused)))
    ensures r.value.outcome == Aborted(Exhausted) ==> EndsWith(r.out, SendError(ReceiverTimeout))
  {
    if e.session.lastSent.None? then
      var sent := SendMessage(e, size, AckMessage(e.session.blockNumber), false);
      if !sent.value then Run(sent.engine, sent.out, Receipt([], Aborted(Refused)))
      else
        var blocks := ReceiveBlocks(sent.engine, size, rule, Sink([], None));
        EndsWithAppend(sent.out, blocks.out, SendError(ReceiverTimeout));
        After(sent.out, blocks)
    else ReceiveBlocks(e, size, rule, Sink([], None))
  }

  /** `receiveFile` as written: a block is a repeat when its number is that of
      the previous inbound message. */
  function ReceiveFile(e: Engine, size: Sizer): (r: Run<Receipt>)
    ensures e.session.lastSent.None? && size(AckMessage(e.session.blockNumber)) <= MAX_PACKET_SIZE ==>
              |r.out| > 0 && r.out[0] == Send(AckMessage(e.session.blockNumber), false)
    ensures e.session.lastSent.None? && size(AckMessage(e.session.blockNumber)) > MAX_PACKET_SIZE ==>
              r.value == Receipt([], Aborted(Refused))
    ensures r.value.outcome == Aborted(Exhausted) ==> EndsWith(r.out, SendError(ReceiverTimeout))
  {
    ReceiveWith(e, size, AgainstLastInbound)
  }

  /** `receiveFile` with a block compared with the previous DATA block. */
  function ReceiveFileCorrected(e: Engine, size: Sizer): (r: Run<Receipt>)
  {
    ReceiveWith(e, size, AgainstLastData)
  }

  // ---------------------------------------------------------------------------
  // The closing wait: AwaitClose and CloseAfter are the loop at
  // app/TFTP.java:292-309

  /** The closing wait, from attempt i on: the first DATA block that arrives
      (the sender repeating its last block because our ACK was lost) is
      acknowledged once more; after RECEIVE_ATTEMPTS quiet waits the
      receiver stops without an error. */
  function AwaitClose(e: Engine, size: Sizer, i: nat): (r: Run<Outcome>)
    requires i <= RECEIVE_ATTEMPTS
    ensures r.value != Aborted(Exhausted)
    ensures |r.engine.script| <= |e.script|
    decreases RECEIVE_ATTEMPTS - i, 1
  {
    if i == RECEIVE_ATTEMPTS then Run(e, [], Completed)
    else CloseAfter(Receive(e, TIMEOUT_RECEIVE), size, i)
  }

  function CloseAfter(got: Run<Inbound>, size: Sizer, i: nat): (r: Run<Outcome>)
    requires i < RECEIVE_ATTEMPTS
    ensures r.value != Aborted(Exhausted)
    ensures |r.engine.script| <= |got.engine.script|
    decreases RECEIVE_ATTEMPTS - i, 0
  {
    if got.value.PeerAbort? then Run(got.engine, got.out, Aborted(PeerError(got.value.errMsg)))
    else if got.value.Got? && got.value.m.opCode == DATA then
      var sent := SendMessage(got.engine, size, AckMessage(got.value.m.blockNum), false);
      Run(sent.engine, got.out + sent.out, if sent.value then Completed else Aborted(Refused))
    else After(got.out, AwaitClose(got.engine, size, i + 1))
  }
}

=== FILE: receiver_props.dfy ===
/** Properties of the receiving side: the DATA wait's ceiling and its
    behaviour under total loss, the closing wait, duplicate suppression,
    the ACK sent for every block, and a lossless transfer writing exactly
    the file that was sent. */
module ReceiverProps {
  import opened Net
  import opened Messages
  import opened Transport
  import opened Sender
  import opened Receiver

  // ---------------------------------------------------------------------------
  // The DATA wait: its waits and its ceiling

  /** The bookkeeping of a DATA wait `r` entered at attempt i: every wait
      lasts TIMEOUT_RECEIVE, there are at most as many as attempts remain,
      exactly that many when it gives up, and, when the last message sent
      fits (`fits`), a resend is never refused. */
  predicate DataTally(fits: bool, i: nat, r: Run<Arrival>)
  {
    && |Waits(r.out)| <= RECEIVE_ATTEMPTS - i
    && (forall t :: t in Waits(r.out) ==> t == TIMEOUT_RECEIVE)
    && (r.value == Halted(Exhausted) ==> |Waits(r.out)| == RECEIVE_ATTEMPTS - i)
    && (fits ==> r.value != Halted(Refused))
  }

  lemma {:induction false} DataWaitTally(e: Engine, size: Sizer, i: nat)
    requires i <= RECEIVE_ATTEMPTS
    requires e.session.lastSent.Some?
    ensures DataTally(Fits(e.session, size), i, AwaitData(e, size, i))
    decreases RECEIVE_ATTEMPTS - i, 3
  {
    if i == RECEIVE_ATTEMPTS {
      ProjectShort(SendError(ReceiverTimeout), SendError(ReceiverTimeout));
    } else {
      DataAfterTally(Receive(e, TIMEOUT_RECEIVE), size, i);
    }
  }

  lemma {:induction false} DataAfterTally(got: Run<Inbound>, size: Sizer, i: nat)
    requires i < RECEIVE_ATTEMPTS
    requires got.engine.session.lastSent.Some?
    requires Fresh(got.out) == [] && Waits(got.out) == [TIMEOUT_RECEIVE]
    requires got.value.Got? ==> got.engine.session.current == Some(got.value.m)
    ensures DataTally(Fits(got.engine.session, size), i, DataAfter(got, size, i))
    decreases RECEIVE_ATTEMPTS - i, 2
  {
    var s := got.engine.session;
    if got.value.PeerAbort? {
    } else if got.value.Nothing? && s.lastSent.value.opCode == RRQ {
      DataResentTally(got.out, Resend(got.engine, size), size, i, false);
    } else if RepeatedRequest(s, got.value) {
      DataResentTally(got.out, Resend(got.engine, size), size, i, true);
    } else if got.value.Got? && got.value.m.opCode == DATA {
    } else {
      DataRetryTally(got.out, got.engine, size, i);
    }
  }

  lemma {:induction false} DataResentTally(pre: seq<Out>, sent: Run<bool>, size: Sizer, i: nat, counts: bool)
    requires i < RECEIVE_ATTEMPTS
    requires sent.engine.session.lastSent.Some?
    requires Fresh(pre) == [] && Fresh(sent.out) == []
    requires Waits(pre) == [TIMEOUT_RECEIVE] && Waits(sent.out) == []
    requires sent.value <==> Fits(sent.engine.session, size)
    ensures DataTally(Fits(sent.engine.session, size), i, DataResent(pre, sent, size, i, counts))
    decreases RECEIVE_ATTEMPTS - i, 1
  {
    WaitsAppend(pre, sent.out);
    FreshAppend(pre, sent.out);
    if sent.value {
      var e := DataResentUnfold(pre, sent, size, i, counts);
      DataRetryTally(pre + sent.out, e, size, i);
    }
  }

  /** A resend that went out continues with the next attempt, on the
      session `e` it leaves behind. */
  lemma DataResentUnfold(pre: seq<Out>, sent: Run<bool>, size: Sizer, i: nat, counts: bool) returns (e: Engine)
    requires i < RECEIVE_ATTEMPTS
    requires sent.engine.session.lastSent.Some?
    requires Fresh(pre) == [] && Fresh(sent.out) == []
    requires sent.value
    ensures e.session.lastSent == sent.engine.session.lastSent && Fits(e.session, size) == Fits(sent.engine.session, size)
    ensures Fresh(pre + sent.out) == []
    ensures DataResent(pre, sent, size, i, counts) == DataRetry(pre + sent.out, e, size, i)
    ensures e.script == sent.engine.script
    ensures e.session == sent.engine.session.(numOfRetry := sent.engine.session.numOfRetry + (if counts then 1 else 0))
  {
    FreshAppend(pre, sent.out);
    var n := sent.engine.session.numOfRetry;
    e := if counts then WithRetry(sent.engine, n + 1) else sent.engine;
  }

  lemma {:induction false} DataRetryTally(pre: seq<Out>, e: Engine, size: Sizer, i: nat)
    requires i < RECEIVE_ATTEMPTS
    requires e.session.lastSent.Some?
    requires Fresh(pre) == [] && Waits(pre) == [TIMEOUT_RECEIVE]
    ensures DataTally(Fits(e.session, size), i, DataRetry(pre, e, size, i))
    decreases RECEIVE_ATTEMPTS - i, 0
  {
    DataWaitTally(e, size, i + 1);
    DataTallyStep(Fits(e.session, size), i, pre, AwaitData(e, size, i + 1));
    DataRetryUnfold(pre, e, size, i);
  }

  lemma DataRetryUnfold(pre: seq<Out>, e: Engine, size: Sizer, i: nat)
    requires i < RECEIVE_ATTEMPTS
    requires e.session.lastSent.Some? && Fresh(pre) == []
    ensures DataRetry(pre, e, size, i) == After(pre, AwaitData(e, size, i + 1))
  {
  }

  /** One failed attempt (its wait, in `pre`) followed by the rest of the
      wait keeps the tally. */
  lemma DataTallyStep(fits: bool, i: nat, pre: seq<Out>, next: Run<Arrival>)
    requires i < RECEIVE_ATTEMPTS
    requires Waits(pre) == [TIMEOUT_RECEIVE]
    requires DataTally(fits, i + 1, next)
    ensures DataTally(fits, i, After(pre, next))
  {
    WaitsAppend(pre, next.out);
  }

  /** A DATA wait that gives up has waited RECEIVE_ATTEMPTS times, each for
      TIMEOUT_RECEIVE, and ends with "Receiver timeout". */
  lemma ExhaustedDataWait(e: Engine, size: Sizer)
    requires e.session.lastSent.Some?
    ensures var r := AwaitData(e, size, FIRST_ATTEMPT);
      r.value == Halted(Exhausted) ==>
        && Waits(r.out) == [TIMEOUT_RECEIVE, TIMEOUT_RECEIVE, TIMEOUT_RECEIVE, TIMEOUT_RECEIVE, TIMEOUT_RECEIVE]
        && EndsWith(r.out, SendError(ReceiverTimeout))
  {
    var r := AwaitData(e, size, FIRST_ATTEMPT);
    DataWaitTally(e, size, FIRST_ATTEMPT);
    if r.value == Halted(Exhausted) {
      AllReceiveTimeouts(Waits(r.out));
    }
  }

  lemma AllReceiveTimeouts(ws: seq<nat>)
    requires |ws| == RECEIVE_ATTEMPTS
    requires forall t :: t in ws ==> t == TIMEOUT_RECEIVE
    ensures ws == [TIMEOUT_RECEIVE, TIMEOUT_RECEIVE, TIMEOUT_RECEIVE, TIMEOUT_RECEIVE, TIMEOUT_RECEIVE]
  {
    assert ws[0] in ws && ws[1] in ws && ws[2] in ws && ws[3] in ws && ws[4] in ws;
  }

  // ---------------------------------------------------------------------------
  // The DATA wait under total loss

  /** How a DATA wait entered at attempt i with last message `sent` ends when
      nothing arrives: it gives up, having resent a read request after every
      wait and anything else never. */
  predicate SilentEnd(sent: Message, i: nat, r: Run<Arrival>)
  {
    && r.value == Halted(Exhausted)
    && Resends(r.out) == (if sent.opCode == RRQ then RECEIVE_ATTEMPTS - i else 0)
  }

  lemma {:induction false} SilentDataWait(e: Engine, size: Sizer, i: nat)
    requires i <= RECEIVE_ATTEMPTS
    requires e.session.lastSent.Some? && Fits(e.session, size)
    requires Silent(e.script)
    ensures SilentEnd(e.session.lastSent.value, i, AwaitData(e, size, i))
    decreases RECEIVE_ATTEMPTS - i, 3
  {
    if i == RECEIVE_ATTEMPTS {
      ProjectShort(SendError(ReceiverTimeout), SendError(ReceiverTimeout));
    } else {
      SilentRest(e.script);
      SilentDataAfter(Receive(e, TIMEOUT_RECEIVE), size, i);
    }
  }

  lemma {:induction false} SilentDataAfter(got: Run<Inbound>, size: Sizer, i: nat)
    requires i < RECEIVE_ATTEMPTS
    requires got.engine.session.lastSent.Some? && Fits(got.engine.session, size)
    requires got.value == Nothing && Silent(got.engine.script)
    requires Fresh(got.out) == [] && Resends(got.out) == 0
    ensures SilentEnd(got.engine.session.lastSent.value, i, DataAfter(got, size, i))
    decreases RECEIVE_ATTEMPTS - i, 2
  {
    if got.engine.session.lastSent.value.opCode == RRQ {
      SilentDataResent(got.out, Resend(got.engine, size), size, i);
    } else {
      SilentDataRetry(got.out, got.engine, size, i);
    }
  }

  lemma {:induction false} SilentDataResent(pre: seq<Out>, sent: Run<bool>, size: Sizer, i: nat)
    requires i < RECEIVE_ATTEMPTS
    requires sent.engine.session.lastSent.Some? && Fits(sent.engine.session, size)
    requires sent.engine.session.lastSent.value.opCode == RRQ
    requires sent.value && Silent(sent.engine.script)
    requires Fresh(pre) == [] && Fresh(sent.out) == []
    requires Resends(pre) == 0 && Resends(sent.out) == 1
    ensures SilentEnd(sent.engine.session.lastSent.value, i, DataResent(pre, sent, size, i, false))
    decreases RECEIVE_ATTEMPTS - i, 1
  {
    ResendsAppend(pre, sent.out);
    FreshAppend(pre, sent.out);
    SilentDataRetry(pre + sent.out, sent.engine, size, i);
    assert DataResent(pre, sent, size, i, false) == DataRetry(pre + sent.out, sent.engine, size, i);
  }

  lemma {:induction false} SilentDataRetry(pre: seq<Out>, e: Engine, size: Sizer, i: nat)
    requires i < RECEIVE_ATTEMPTS
    requires e.session.lastSent.Some? && Fits(e.session, size)
    requires Silent(e.script)
    requires Fresh(pre) == [] && Resends(pre) == (if e.session.lastSent.value.opCode == RRQ then 1 else 0)
    ensures SilentEnd(e.session.lastSent.value, i, DataRetry(pre, e, size, i))
    decreases RECEIVE_ATTEMPTS - i, 0
  {
    SilentDataWait(e, size, i + 1);
    ResendsAppend(pre, AwaitData(e, size, i + 1).out);
    DataRetryUnfold(pre, e, size, i);
  }

  // ---------------------------------------------------------------------------
  // The closing wait

  /** k waits of TIMEOUT_RECEIVE and nothing else. */
  function QuietWaits(k: nat): (o: seq<Out>)
    ensures |o| == k
  {
    if k == 0 then [] else [Wait(TIMEOUT_RECEIVE)] + QuietWaits(k - 1)
  }

  lemma {:induction false} QuietWaitsSendNothing(k: nat)
    ensures Fresh(QuietWaits(k)) == [] && Resends(QuietWaits(k)) == 0
  {
    if k > 0 {
      var o := QuietWaits(k);
      assert o[0] == Wait(TIMEOUT_RECEIVE) && o[1..] == QuietWaits(k - 1);
      QuietWaitsSendNothing(k - 1);
    }
  }

  /** When nothing arrives the closing wait waits out its remaining attempts
      and ends the transfer normally, sending nothing. */
  lemma {:induction false} SilentClose(e: Engine, size: Sizer, i: nat)
    requires i <= RECEIVE_ATTEMPTS
    requires Silent(e.script)
    ensures AwaitClose(e, size, i).value == Completed
    ensures AwaitClose(e, size, i).out == QuietWaits(RECEIVE_ATTEMPTS - i)
    decreases RECEIVE_ATTEMPTS - i
  {
    if i < RECEIVE_ATTEMPTS {
      SilentRest(e.script);
      var got := Receive(e, TIMEOUT_RECEIVE);
      assert got.out == [Wait(TIMEOUT_RECEIVE)] && got.value == Nothing;
      SilentClose(got.engine, size, i + 1);
    }
  }

  /** A DATA block arriving in the closing wait (the sender repeating its last
      block because the ACK was lost) is acknowledged, and the transfer ends. */
  lemma CloseAcknowledgesRepeat(e: Engine, size: Sizer, i: nat, a: Address, p: int, m: Message)
    requires i < RECEIVE_ATTEMPTS
    requires FromPeer(e.session, a, p) && NextEvent(e.script) == Packet(a, p, Some(m)) && m.opCode == DATA
    requires size(AckMessage(m.blockNum)) <= MAX_PACKET_SIZE
    ensures AwaitClose(e, size, i).value == Completed
    ensures AwaitClose(e, size, i).out == [Wait(TIMEOUT_RECEIVE), Send(AckMessage(m.blockNum), false)]
  {
  }

  // ---------------------------------------------------------------------------
  // One iteration of the data loop

  /** The session before a message arrives, seen from the duplicate check:
      the message that becomes the previous inbound one. */
  function Previous(s: Session): Option<Message>
  {
    if s.current.Some? then s.current else s.last
  }

  /** Receiving m moves the message before it into the `last` slot. */
  lemma RollPrevious(s: Session, m: Message)
    ensures Roll(s, m).last == Previous(s) && Roll(s, m).current == Some(m)
    ensures SameCounters(Roll(s, m), s)
    ensures Roll(s, m).destAddress == s.destAddress && Roll(s, m).destPort == s.destPort
  {
  }

  /** A DATA block from the peer ends the DATA wait at once. */
  lemma DataArrives(e: Engine, size: Sizer, i: nat, a: Address, p: int, m: Message)
    requires i < RECEIVE_ATTEMPTS && e.session.lastSent.Some?
    requires FromPeer(e.session, a, p) && NextEvent(e.script) == Packet(a, p, Some(m)) && m.opCode == DATA
    ensures AwaitData(e, size, i) == Run(Engine(Roll(e.session, m), Rest(e.script)), [Wait(TIMEOUT_RECEIVE)], Arrived(m))
  {
    assert Learn(e.session, a, p) == e.session;
  }

  /** The session after DATA block m was received into s and acknowledged. */
  function Acked(s: Session, m: Message): Session
  {
    s.(lastSent := Some(AckMessage(m.blockNum)))
  }

  /** Every block that arrives is acknowledged with its own number, repeat or
      not; after a block that keeps the loop going the next iteration starts. */
  lemma NextBlock(got: Run<Arrival>, size: Sizer, rule: DuplicateRule, sink: Sink)
    requires got.engine.session.lastSent.Some? && got.value.Arrived?
    requires size(AckMessage(got.value.m.blockNum)) <= MAX_PACKET_SIZE
    requires KeepsReceiving(rule, got.engine.session, sink, got.value.m)
    ensures var m := got.value.m;
      BlockArrived(got, size, rule, sink)
      == After(got.out + [Send(AckMessage(m.blockNum), false)],
               ReceiveBlocks(Engine(Acked(got.engine.session, m), got.engine.script), size, rule, Absorb(rule, got.engine.session, sink, m)))
  {
  }

  /** A short new block followed by silence ends the transfer normally with
      its ACK the last message sent for the first time. */
  lemma LastBlock(got: Run<Arrival>, size: Sizer, rule: DuplicateRule, sink: Sink)
    requires got.engine.session.lastSent.Some? && got.value.Arrived?
    requires size(AckMessage(got.value.m.blockNum)) <= MAX_PACKET_SIZE
    requires !KeepsReceiving(rule, got.engine.session, sink, got.value.m)
    requires Silent(got.engine.script)
    ensures var r := BlockArrived(got, size, rule, sink);
      && r.value == Receipt(Absorb(rule, got.engine.session, sink, got.value.m).written, Completed)
      && Fresh(r.out) == Fresh(got.out) + [AckMessage(got.value.m.blockNum)]
  {
    var m := got.value.m;
    var ack := Send(AckMessage(m.blockNum), false);
    var e2 := Engine(Acked(got.engine.session, m), got.engine.script);
    SilentClose(e2, size, 0);
    QuietWaitsSendNothing(RECEIVE_ATTEMPTS);
    ProjectShort(ack, ack);
    FreshAppend(got.out, [ack]);
    FreshAppend(got.out + [ack], AwaitClose(e2, size, 0).out);
  }

  /** A short new block ends the data loop whatever follows it: the block is
      written and ACKed, then only the closing wait runs (it answers a repeat
      of the block whose ACK was lost), so nothing more is written and the
      transfer never ends in "Receiver timeout". */
  lemma ShortBlockCloses(got: Run<Arrival>, size: Sizer, rule: DuplicateRule, sink: Sink)
    requires got.engine.session.lastSent.Some? && got.value.Arrived?
    requires size(AckMessage(got.value.m.blockNum)) <= MAX_PACKET_SIZE
    requires !KeepsReceiving(rule, got.engine.session, sink, got.value.m)
    ensures var m := got.value.m;
      var r := BlockArrived(got, size, rule, sink);
      var written := Absorb(rule, got.engine.session, sink, m).written;
      && r == Closed(got.out + [Send(AckMessage(m.blockNum), false)],
                     AwaitClose(Engine(Acked(got.engine.session, m), got.engine.script), size, 0), written)
      && r.value.written == written
      && r.value.outcome != Aborted(Exhausted)
  {
  }

  // ---------------------------------------------------------------------------
  // Repeated blocks

  /** Receiving the same block twice in a row, under either rule, writes it
      once: the second copy leaves the file as it was and keeps the loop going. */
  lemma RedeliveryIdempotent(rule: DuplicateRule, s: Session, sink: Sink, m: Message)
    ensures var s1 := Roll(s, m);
      var sink1 := Absorb(rule, s1, sink, m);
      var s2 := Roll(s1, m);
      && Absorb(rule, s2, sink1, m) == sink1
      && KeepsReceiving(rule, s2, sink1, m)
  {
  }

  // ---------------------------------------------------------------------------
  // The previous inbound message does not steer the DATA wait

  /** Sessions that are equal, or differ only in the previous inbound
      message while a current one exists: the next message received makes
      them equal. */
  predicate SameButLast(s: Session, t: Session)
  {
    s == t || (s.current.Some? && s.(last := t.last) == t)
  }

  /** Two runs that agree on everything the DATA wait and the data loop look
      at: the same actions, value and script, sessions that differ at most in
      the previous inbound message, and the same engine once a message came. */
  predicate Agree<T(==)>(r: Run<T>, t: Run<T>, settled: bool)
  {
    && r.out == t.out && r.value == t.value && r.engine.script == t.engine.script
    && SameButLast(r.engine.session, t.engine.session)
    && (settled ==> r.engine == t.engine)
  }

  lemma ReceiveIgnoresLast(e: Engine, f: Engine, timeout: nat)
    requires e.script == f.script && SameButLast(e.session, f.session)
    ensures var r := Receive(e, timeout); var t := Receive(f, timeout);
      Agree(r, t, r.value.Got?)
  {
  }

  lemma {:induction false} AwaitDataIgnoresLast(e: Engine, f: Engine, size: Sizer, i: nat)
    requires i <= RECEIVE_ATTEMPTS && e.session.lastSent.Some?
    requires e.script == f.script && SameButLast(e.session, f.session)
    ensures var r := AwaitData(e, size, i); var t := AwaitData(f, size, i);
      Agree(r, t, r.value.Arrived?)
    decreases RECEIVE_ATTEMPTS - i, 3
  {
    if i < RECEIVE_ATTEMPTS {
      ReceiveIgnoresLast(e, f, TIMEOUT_RECEIVE);
      DataAfterIgnoresLast(Receive(e, TIMEOUT_RECEIVE), Receive(f, TIMEOUT_RECEIVE), size, i);
    }
  }

  lemma {:induction false} DataAfterIgnoresLast(got: Run<Inbound>, other: Run<Inbound>, size: Sizer, i: nat)
    requires i < RECEIVE_ATTEMPTS && got.engine.session.lastSent.Some?
    requires Fresh(got.out) == []
    requires got.value.Got? ==> got.engine.session.current == Some(got.value.m)
    requires Agree(got, other, got.value.Got?)
    ensures var r := DataAfter(got, size, i); var t := DataAfter(other, size, i);
      Agree(r, t, r.value.Arrived?)
    decreases RECEIVE_ATTEMPTS - i, 2
  {
    if got.value.Got? {
      assert got == other;
    } else if got.value.Nothing? {
      var sent := Resend(got.engine, size);
      var sent2 := Resend(other.engine, size);
      assert Agree(sent, sent2, false);
      if got.engine.session.lastSent.value.opCode == RRQ {
        DataResentIgnoresLast(got.out, sent, sent2, size, i, false);
      } else {
        DataRetryIgnoresLast(got.out, got.engine, other.engine, size, i);
      }
    }
  }

  lemma {:induction false} DataResentIgnoresLast(pre: seq<Out>, sent: Run<bool>, other: Run<bool>, size: Sizer, i: nat, counts: bool)
    requires i < RECEIVE_ATTEMPTS && sent.engine.session.lastSent.Some?
    requires Fresh(pre) == [] && Fresh(sent.out) == []
    requires Agree(sent, other, false)
    ensures var r := DataResent(pre, sent, size, i, counts); var t := DataResent(pre, other, size, i, counts);
      Agree(r, t, r.value.Arrived?)
    decreases RECEIVE_ATTEMPTS - i, 1
  {
    if sent.value {
      var e := DataResentUnfold(pre, sent, size, i, counts);
      var f := DataResentUnfold(pre, other, size, i, counts);
      DataRetryIgnoresLast(pre + sent.out, e, f, size, i);
    }
  }

  lemma {:induction false} DataRetryIgnoresLast(pre: seq<Out>, e: Engine, f: Engine, size: Sizer, i: nat)
    requires i < RECEIVE_ATTEMPTS && e.session.lastSent.Some?
    requires Fresh(pre) == []
    requires e.script == f.script && SameButLast(e.session, f.session)
    ensures var r := DataRetry(pre, e, size, i); var t := DataRetry(pre, f, size, i);
      Agree(r, t, r.value.Arrived?)
    decreases RECEIVE_ATTEMPTS - i, 0
  {
    AwaitDataIgnoresLast(e, f, size, i + 1);
  }

  /** The data loop writes the same file and puts the same actions on the
      wire whatever the previous inbound message was. */
  lemma ReceiveBlocksIgnoresLast(e: Engine, f: Engine, size: Sizer, rule: DuplicateRule, sink: Sink)
    requires e.session.lastSent.Some?
    requires e.script == f.script && SameButLast(e.session, f.session)
    ensures ReceiveBlocks(e, size, rule, sink).value == ReceiveBlocks(f, size, rule, sink).value
    ensures ReceiveBlocks(e, size, rule, sink).out == ReceiveBlocks(f, size, rule, sink).out
  {
    AwaitDataIgnoresLast(e, f, size, 0);
    var got := AwaitData(e, size, 0);
    if got.value.Arrived? {
      assert got == AwaitData(f, size, 0);
    }
  }

  /** Once block m was received and acknowledged, a second copy of it at the
      head of the script only sends the ACK again: the rest of the transfer
      writes what it would have written without the copy. */
  lemma RepeatAbsorbed(s: Session, rest: seq<Event>, size: Sizer, rule: DuplicateRule, sink: Sink, a: Address, p: int, m: Message)
    requires FromPeer(s, a, p) && m.opCode == DATA
    requires s.current == Some(m) && s.lastSent == Some(AckMessage(m.blockNum)) && sink.lastData == Some(m)
    requires size(AckMessage(m.blockNum)) <= MAX_PACKET_SIZE
    ensures ReceiveBlocks(Engine(s, [Packet(a, p, Some(m))] + rest), size, rule, sink)
         == After([Wait(TIMEOUT_RECEIVE), Send(AckMessage(m.blockNum), false)],
                  ReceiveBlocks(Engine(s.(last := Some(m)), rest), size, rule, sink))
  {
    var e := Engine(s, [Packet(a, p, Some(m))] + rest);
    assert Rest(e.script) == rest;
    DataArrives(e, size, 0, a, p, m);
    var got := AwaitData(e, size, 0);
    var s1 := Roll(s, m);
    assert got == Run(Engine(s1, rest), [Wait(TIMEOUT_RECEIVE)], Arrived(m));
    assert Duplicate(rule, s1, sink, m);
    assert Absorb(rule, s1, sink, m) == sink;
    NextBlock(got, size, rule, sink);
    assert Acked(s1, m) == s.(last := Some(m));
    var next := ReceiveBlocks(Engine(s.(last := Some(m)), rest), size, rule, sink);
    assert got.out + [Send(AckMessage(m.blockNum), false)] == [Wait(TIMEOUT_RECEIVE), Send(AckMessage(m.blockNum), false)];
    assert BlockArrived(got, size, rule, sink) == After([Wait(TIMEOUT_RECEIVE), Send(AckMessage(m.blockNum), false)], next);
    assert ReceiveBlocks(e, size, rule, sink) == BlockArrived(got, size, rule, sink);
  }

  /** A second copy of block m costs one wait and one repeated ACK and
      changes nothing else: the transfer writes the same file, ends the same
      way and sends the same messages afterwards as it would without it. */
  lemma RepeatChangesNothing(s: Session, rest: seq<Event>, size: Sizer, rule: DuplicateRule, sink: Sink, a: Address, p: int, m: Message)
    requires FromPeer(s, a, p) && m.opCode == DATA
    requires s.current == Some(m) && s.lastSent == Some(AckMessage(m.blockNum)) && sink.lastData == Some(m)
    requires size(AckMessage(m.blockNum)) <= MAX_PACKET_SIZE
    ensures var with := ReceiveBlocks(Engine(s, [Packet(a, p, Some(m))] + rest), size, rule, sink);
      var without := ReceiveBlocks(Engine(s, rest), size, rule, sink);
      && with.value == without.value
      && with.out == [Wait(TIMEOUT_RECEIVE), Send(AckMessage(m.blockNum), false)] + without.out
  {
    RepeatAbsorbed(s, rest, size, rule, sink, a, p, m);
    ReceiveBlocksIgnoresLast(Engine(s.(last := Some(m)), rest), Engine(s, rest), size, rule, sink);
  }

  // ---------------------------------------------------------------------------
  // A lossless transfer

  /** A message that does not carry block number n, if there is one. */
  predicate NotBlock(h: Option<Message>, n: int)
  {
    h.Some? ==> h.value.blockNum != n
  }

  /** A block whose number differs from the previous inbound message's and
      from the previous DATA block's is new under either rule. */
  lemma NewBlock(rule: DuplicateRule, s: Session, sink: Sink, m: Message)
    requires NotBlock(Previous(s), m.blockNum) && NotBlock(sink.lastData, m.blockNum)
    ensures !Duplicate(rule, Roll(s, m), sink, m)
    ensures Absorb(rule, Roll(s, m), sink, m) == Sink(sink.written + m.data, Some(m))
    ensures KeepsReceiving(rule, Roll(s, m), sink, m) <==> |m.data| == MAX_DATA_SIZE
  {
    RollPrevious(s, m);
  }

  /** The data loop on a script that starts with DATA block m from the peer. */
  lemma BlocksUnfold(e: Engine, size: Sizer, rule: DuplicateRule, sink: Sink, a: Address, p: int, m: Message)
    requires FromPeer(e.session, a, p) && e.session.lastSent.Some?
    requires NextEvent(e.script) == Packet(a, p, Some(m)) && m.opCode == DATA
    ensures ReceiveBlocks(e, size, rule, sink)
         == BlockArrived(Run(Engine(Roll(e.session, m), Rest(e.script)), [Wait(TIMEOUT_RECEIVE)], Arrived(m)), size, rule, sink)
  {
    DataArrives(e, size, 0, a, p, m);
  }

  /** A lossless, in-order delivery of the DATA blocks of `rest` numbered
      after b makes the data loop write exactly `rest` after what it had
      written, acknowledge each block once, in order, and end normally. */
  lemma {:induction false} LosslessBlocks(e: Engine, size: Sizer, rule: DuplicateRule, sink: Sink, a: Address, p: int, b: int, rest: seq<byte>)
    requires FromPeer(e.session, a, p) && e.session.lastSent.Some?
    requires AcksFit(size)
    requires e.script == Deliver(a, p, DataBlocks(b, Chunks(rest)))
    requires NotBlock(Previous(e.session), b + 1) && NotBlock(sink.lastData, b + 1)
    ensures ReceiveBlocks(e, size, rule, sink).value == Receipt(sink.written + rest, Completed)
    ensures Fresh(ReceiveBlocks(e, size, rule, sink).out) == AcksOf(DataBlocks(b, Chunks(rest)))
    decreases |rest|
  {
    var ms := DataBlocks(b, Chunks(rest));
    BlocksHead(b, rest);
    DeliverHead(a, p, ms);
    var m := ms[0];
    var got := Run(Engine(Roll(e.session, m), Rest(e.script)), [Wait(TIMEOUT_RECEIVE)], Arrived(m));
    BlocksUnfold(e, size, rule, sink, a, p, m);
    NewBlock(rule, e.session, sink, m);
    assert size(AckMessage(m.blockNum)) <= MAX_PACKET_SIZE;
    if |rest| >= MAX_DATA_SIZE {
      var sink1 := Sink(sink.written + rest[..MAX_DATA_SIZE], Some(m));
      var e2 := Engine(Acked(got.engine.session, m), got.engine.script);
      NextBlock(got, size, rule, sink);
      RollPrevious(e.session, m);
      LosslessNext(e2, size, rule, sink1, a, p, b, rest);
      Resplit(sink.written, rest, MAX_DATA_SIZE);
    } else {
      LastBlock(got, size, rule, sink);
    }
  }

  lemma Resplit(w: seq<byte>, rest: seq<byte>, k: nat)
    requires k <= |rest|
    ensures w + rest[..k] + rest[k..] == w + rest
  {
    assert rest[..k] + rest[k..] == rest;
  }

  /** The inductive step of `LosslessBlocks`: the ACK of a full block, then
      the data loop over the rest of the file. */
  lemma {:induction false} LosslessNext(e2: Engine, size: Sizer, rule: DuplicateRule, sink1: Sink, a: Address, p: int, b: int, rest: seq<byte>)
    requires |rest| >= MAX_DATA_SIZE
    requires FromPeer(e2.session, a, p) && e2.session.lastSent.Some?
    requires AcksFit(size)
    requires e2.script == Deliver(a, p, DataBlocks(b + 1, Chunks(rest[MAX_DATA_SIZE..])))
    requires sink1.lastData.Some? && sink1.lastData.value.blockNum == b + 1 && Previous(e2.session) == sink1.lastData
    ensures var r := After([Wait(TIMEOUT_RECEIVE)] + [Send(AckMessage(b + 1), false)], ReceiveBlocks(e2, size, rule, sink1));
      && r.value == Receipt(sink1.written + rest[MAX_DATA_SIZE..], Completed)
      && Fresh(r.out) == [AckMessage(b + 1)] + AcksOf(DataBlocks(b + 1, Chunks(rest[MAX_DATA_SIZE..])))
    decreases |rest|, 0
  {
    LosslessBlocks(e2, size, rule, sink1, a, p, b + 1, rest[MAX_DATA_SIZE..]);
    AckThen(b + 1, ReceiveBlocks(e2, size, rule, sink1));
  }

  /** A wait, an ACK, then the rest of a run. */
  lemma AckThen(n: int, next: Run<Receipt>)
    ensures var pre := [Wait(TIMEOUT_RECEIVE)] + [Send(AckMessage(n), false)];
      && After(pre, next).value == next.value
      && Fresh(After(pre, next).out) == [AckMessage(n)] + Fresh(next.out)
  {
    var ack := Send(AckMessage(n), false);
    ProjectShort(Wait(TIMEOUT_RECEIVE), ack);
    FreshAppend([Wait(TIMEOUT_RECEIVE)] + [ack], next.out);
  }

  /** `receiveFile` on a lossless, in-order delivery of the DATA blocks of a
      file, numbered on from this side's block number, writes exactly the
      file, acknowledges every block in order (after the ACK of the request
      on the side that accepted a write request) and ends normally. */
  lemma LosslessReceive(e: Engine, size: Sizer, rule: DuplicateRule, a: Address, p: int, file: seq<byte>)
    requires FromPeer(e.session, a, p) && AcksFit(size)
    requires e.script == Deliver(a, p, DataBlocks(e.session.blockNumber, Chunks(file)))
    requires NotBlock(Previous(e.session), e.session.blockNumber + 1)
    ensures ReceiveWith(e, size, rule).value == Receipt(file, Completed)
    ensures Fresh(ReceiveWith(e, size, rule).out)
         == (if e.session.lastSent.None? then [AckMessage(e.session.blockNumber)] else [])
            + AcksOf(DataBlocks(e.session.blockNumber, Chunks(file)))
  {
    var b := e.session.blockNumber;
    if e.session.lastSent.None? {
      var sent := SendMessage(e, size, AckMessage(b), false);
      assert size(AckMessage(b)) <= MAX_PACKET_SIZE;
      LosslessBlocks(sent.engine, size, rule, Sink([], None), a, p, b, file);
      FreshAppend(sent.out, ReceiveBlocks(sent.engine, size, rule, Sink([], None)).out);
    } else {
      LosslessBlocks(e, size, rule, Sink([], None), a, p, b, file);
    }
  }

  // ---------------------------------------------------------------------------
  // A repeat after an interleaved message

  /** A message from the peer that is neither DATA nor ERROR, nor the repeated
      write request that would resend ACK 0, is ignored by the DATA wait; it
      still enters the inbound history. */
  lemma OtherIgnored(e: Engine, size: Sizer, i: nat, a: Address, p: int, q: Message)
    requires i < RECEIVE_ATTEMPTS && e.session.lastSent.Some?
    requires FromPeer(e.session, a, p) && NextEvent(e.script) == Packet(a, p, Some(q))
    requires q.opCode != DATA && q.opCode != ERROR
    requires !(e.session.lastSent.value.blockNum == 0 && q.opCode == WRQ)
    ensures AwaitData(e, size, i) == After([Wait(TIMEOUT_RECEIVE)], AwaitData(Engine(Roll(e.session, q), Rest(e.script)), size, i + 1))
  {
    assert Learn(e.session, a, p) == e.session;
    DataRetryUnfold([Wait(TIMEOUT_RECEIVE)], Engine(Roll(e.session, q), Rest(e.script)), size, i);
  }

  /** While the last message sent is block 0 (the ACK of a write request, or
      the read request itself), a write request from the peer means that
      message was lost: it is resent once, one retry is counted, and the wait
      goes on with its next attempt. A resend that does not fit ends the wait. */
  lemma RepeatedRequestResent(e: Engine, size: Sizer, i: nat, a: Address, p: int, q: Message)
    requires i < RECEIVE_ATTEMPTS && e.session.lastSent.Some?
    requires FromPeer(e.session, a, p) && NextEvent(e.script) == Packet(a, p, Some(q))
    requires e.session.lastSent.value.blockNum == 0 && q.opCode == WRQ
    ensures var sent := e.session.lastSent.value;
      var next := Engine(Roll(e.session, q).(numOfRetry := e.session.numOfRetry + 1), Rest(e.script));
      Fits(e.session, size) ==>
        AwaitData(e, size, i) == After([Wait(TIMEOUT_RECEIVE), Send(sent, true)], AwaitData(next, size, i + 1))
    ensures !Fits(e.session, size) ==> AwaitData(e, size, i).value == Halted(Refused)
  {
    assert Learn(e.session, a, p) == e.session;
    var got := Receive(e, TIMEOUT_RECEIVE);
    assert got == Run(Engine(Roll(e.session, q), Rest(e.script)), [Wait(TIMEOUT_RECEIVE)], Got(q));
    assert RepeatedRequest(got.engine.session, got.value);
    var sent := Resend(got.engine, size);
    assert AwaitData(e, size, i) == DataAfter(got, size, i);
    assert DataAfter(got, size, i) == DataResent(got.out, sent, size, i, true);
    if Fits(e.session, size) {
      var next := Engine(Roll(e.session, q).(numOfRetry := e.session.numOfRetry + 1), Rest(e.script));
      assert sent.out == [Send(e.session.lastSent.value, true)];
      assert sent.engine == got.engine;
      var d := DataResentUnfold(got.out, sent, size, i, true);
      assert d == next;
      DataRetryUnfold(got.out + sent.out, next, size, i);
      var pre := [Wait(TIMEOUT_RECEIVE), Send(e.session.lastSent.value, true)];
      assert got.out + sent.out == pre;
      assert AwaitData(e, size, i) == After(pre, AwaitData(next, size, i + 1));
    }
  }

  /** A short new block followed by silence ends the data loop: its payload
      is the last thing written. */
  lemma ShortLastBlock(e: Engine, size: Sizer, rule: DuplicateRule, sink: Sink, a: Address, p: int, m: Message)
    requires FromPeer(e.session, a, p) && e.session.lastSent.Some?
    requires e.script == [Packet(a, p, Some(m))] && m.opCode == DATA && |m.data| < MAX_DATA_SIZE
    requires NotBlock(Previous(e.session), m.blockNum) && NotBlock(sink.lastData, m.blockNum)
    requires size(AckMessage(m.blockNum)) <= MAX_PACKET_SIZE
    ensures ReceiveBlocks(e, size, rule, sink).value == Receipt(sink.written + m.data, Completed)
  {
    var got := Run(Engine(Roll(e.session, m), Rest(e.script)), [Wait(TIMEOUT_RECEIVE)], Arrived(m));
    BlocksUnfold(e, size, rule, sink, a, p, m);
    NewBlock(rule, e.session, sink, m);
    LastBlock(got, size, rule, sink);
  }

  /** After full block d was received and acknowledged, another message q
      from the peer, a second copy of d and a short last block arrive. The
      second copy is written again when blocks are compared with the previous
      inbound message (q), and not when they are compared with the previous
      DATA block. */
  lemma InterleavedRepeat(s: Session, size: Sizer, rule: DuplicateRule, sink: Sink, a: Address, p: int, q: Message, d: Message, last: Message)
    requires FromPeer(s, a, p) && AcksFit(size)
    requires d.opCode == DATA && |d.data| == MAX_DATA_SIZE && d.blockNum != 0
    requires s.current == Some(d) && s.lastSent == Some(AckMessage(d.blockNum)) && sink.lastData == Some(d)
    requires q.opCode != DATA && q.opCode != ERROR && q.blockNum != d.blockNum
    requires last.opCode == DATA && last.blockNum != d.blockNum && |last.data| < MAX_DATA_SIZE
    ensures ReceiveBlocks(Engine(s, [Packet(a, p, Some(q)), Packet(a, p, Some(d)), Packet(a, p, Some(last))]), size, rule, sink).value
         == Receipt(sink.written + (if rule == AgainstLastInbound then d.data else []) + last.data, Completed)
  {
    var e := Engine(s, [Packet(a, p, Some(q)), Packet(a, p, Some(d)), Packet(a, p, Some(last))]);
    var s3 := Roll(s, q);
    var e3 := Engine(s3, [Packet(a, p, Some(d)), Packet(a, p, Some(last))]);
    assert Rest(e.script) == e3.script;
    OtherIgnored(e, size, 0, a, p, q);
    assert Rest(e3.script) == [Packet(a, p, Some(last))];
    DataArrives(e3, size, 1, a, p, d);
    var s4 := Roll(s3, d);
    var got := Run(Engine(s4, [Packet(a, p, Some(last))]), [Wait(TIMEOUT_RECEIVE)] + [Wait(TIMEOUT_RECEIVE)], Arrived(d));
    assert ReceiveBlocks(e, size, rule, sink) == BlockArrived(got, size, rule, sink);
    var sink5 := Sink(sink.written + (if rule == AgainstLastInbound then d.data else []), Some(d));
    assert s4.last == Some(q);
    assert Absorb(rule, s4, sink, d) == sink5;
    assert size(AckMessage(d.blockNum)) <= MAX_PACKET_SIZE && size(AckMessage(last.blockNum)) <= MAX_PACKET_SIZE;
    NextBlock(got, size, rule, sink);
    var e5 := Engine(Acked(s4, d), [Packet(a, p, Some(last))]);
    ShortLastBlock(e5, size, rule, sink5, a, p, last);
  }

  /** As written, a block that reaches the receiver again after another
      message from the peer is appended a second time. */
  lemma RepeatWrittenTwice(s: Session, size: Sizer, sink: Sink, a: Address, p: int, q: Message, d: Message, last: Message)
    requires FromPeer(s, a, p) && AcksFit(size)
    requires d.opCode == DATA && |d.data| == MAX_DATA_SIZE && d.blockNum != 0
    requires s.current == Some(d) && s.lastSent == Some(AckMessage(d.blockNum)) && sink.lastData == Some(d)
    requires q.opCode != DATA && q.opCode != ERROR && q.blockNum != d.blockNum
    requires last.opCode == DATA && last.blockNum != d.blockNum && |last.data| < MAX_DATA_SIZE
    ensures ReceiveBlocks(Engine(s, [Packet(a, p, Some(q)), Packet(a, p, Some(d)), Packet(a, p, Some(last))]), size, AgainstLastInbound, sink).value
         == Receipt(sink.written + d.data + last.data, Completed)
  {
    InterleavedRepeat(s, size, AgainstLastInbound, sink, a, p, q, d, last);
  }

  /** Compared with the previous DATA block instead, the same second copy is
      only acknowledged again, and the file gets the last block alone. */
  lemma RepeatWrittenOnce(s: Session, size: Sizer, sink: Sink, a: Address, p: int, q: Message, d: Message, last: Message)
    requires FromPeer(s, a, p) && AcksFit(size)
    requires d.opCode == DATA && |d.data| == MAX_DATA_SIZE && d.blockNum != 0
    requires s.current == Some(d) && s.lastSent == Some(AckMessage(d.blockNum)) && sink.lastData == Some(d)
    requires q.opCode != DATA && q.opCode != ERROR && q.blockNum != d.blockNum
    requires last.opCode == DATA && last.blockNum != d.blockNum && |last.data| < MAX_DATA_SIZE
    ensures ReceiveBlocks(Engine(s, [Packet(a, p, Some(q)), Packet(a, p, Some(d)), Packet(a, p, Some(last))]), size, AgainstLastData, sink).value
         == Receipt(sink.written + last.data, Completed)
  {
    InterleavedRepeat(s, size, AgainstLastData, sink, a, p, q, d, last);
    assert sink.written + [] == sink.written;
  }
}

=== FILE: relay.dfy ===
/** The fault-injecting relay: one datagram at a time, it learns the client's
    port from the first datagram, routes each datagram to the other side and
    drops it when a random draw falls below the drop percentage. The draw is
    an input, so the step is deterministic. */
module Relay {
  import opened Net

  /** The relay's receive buffer: a longer datagram is cut to its first BUFFER_SIZE bytes. */
  const BUFFER_SIZE: nat := 1024
  /** Draws are uniform over [0, DRAW_RANGE). */
  const DRAW_RANGE: int := 100

  /** A datagram's host, port and payload. On a datagram the relay receives,
      `addr` and `port` are its sender's; on one it forwards, they are where it
      is sent: the sender's host, at the port of the other side. */
  datatype Datagram = Datagram(addr: Address, port: int, payload: seq<byte>)

  /** The relay's fields and the `firstPacket` flag of its loop. */
  datatype Relay = Relay(serverPort: int, clientPort: int, chanceToDrop: int, firstPacket: bool)

  /** One datagram received, with the draw made for it. */
  datatype Incoming = Incoming(d: Datagram, draw: int)

  datatype Step = Step(relay: Relay, forwarded: Option<Datagram>)

  /** A relay that has received nothing yet. */
  function Start(serverPort: int, chanceToDrop: int): Relay
  {
    Relay(serverPort, 0, chanceToDrop, true)
  }

  /** What the socket hands over of a datagram: at most BUFFER_SIZE bytes. */
  function Received(payload: seq<byte>): (r: seq<byte>)
    ensures |r| <= BUFFER_SIZE && r <= payload
    ensures |payload| <= BUFFER_SIZE ==> r == payload
  {
    if |payload| <= BUFFER_SIZE then payload else payload[..BUFFER_SIZE]
  }

  /** The port a datagram from `port` is sent on to. */
  function Destination(r: Relay, port: int): int
  {
    if port == r.clientPort then r.serverPort else r.clientPort
  }

  /** One iteration of the relay's loop. */
  function Forward(r: Relay, x: Incoming): (s: Step)
    requires 0 <= x.draw < DRAW_RANGE
    ensures s.relay.serverPort == r.serverPort && s.relay.chanceToDrop == r.chanceToDrop && !s.relay.firstPacket
    ensures s.relay.clientPort == (if r.firstPacket then x.d.port else r.clientPort)
    ensures s.forwarded.Some? <==> x.draw >= r.chanceToDrop
    ensures s.forwarded.Some? ==>
              && s.forwarded.value.addr == x.d.addr
              && s.forwarded.value.payload == Received(x.d.payload)
              && s.forwarded.value.port == (if x.d.port == s.relay.clientPort then r.serverPort else s.relay.clientPort)
  {
    var learned := if r.firstPacket then r.(clientPort := x.d.port, firstPacket := false) else r;
    if x.draw >= learned.chanceToDrop then
      Step(learned, Some(Datagram(x.d.addr, Destination(learned, x.d.port), Received(x.d.payload))))
    else Step(learned, None)
  }

  predicate ValidDraws(xs: seq<Incoming>)
  {
    forall j :: 0 <= j < |xs| ==> 0 <= xs[j].draw < DRAW_RANGE
  }

  /** The relay over a sequence of datagrams: its final state and what it forwarded, in order. */
  function Run(r: Relay, xs: seq<Incoming>): (s: (Relay, seq<Datagram>))
    requires ValidDraws(xs)
    ensures |s.1| <= |xs|
    ensures s.0.serverPort == r.serverPort && s.0.chanceToDrop == r.chanceToDrop
    ensures s.0.firstPacket <==> r.firstPacket && |xs| == 0
    ensures s.0.clientPort == (if r.firstPacket && |xs| > 0 then xs[0].d.port else r.clientPort)
    decreases |xs|
  {
    if |xs| == 0 then (r, [])
    else
      var st := Forward(r, xs[0]);
      var rest := Run(st.relay, xs[1..]);
      (rest.0, (if st.forwarded.Some? then [st.forwarded.value] else []) + rest.1)
  }

  // ---------------------------------------------------------------------------
  // A reference description of a run

  /** The datagrams whose draw is at least `chance`, in order. */
  function Survivors(xs: seq<Incoming>, chance: int): (ys: seq<Incoming>)
    ensures |ys| <= |xs|
  {
    if |xs| == 0 then []
    else (if xs[0].draw >= chance then [xs[0]] else []) + Survivors(xs[1..], chance)
  }

  /** Datagrams `xs` sent on between client port `client` and server port
      `server`: from the client to the server, from anywhere else to the client. */
  function Relayed(client: int, server: int, xs: seq<Incoming>): (ds: seq<Datagram>)
    ensures |ds| == |xs|
  {
    if |xs| == 0 then []
    else [Datagram(xs[0].d.addr, if xs[0].d.port == client then server else client, Received(xs[0].d.payload))]
         + Relayed(client, server, xs[1..])
  }

  /** Once the client port is known the relay never changes, and it forwards
      exactly the datagrams whose draw is not below the drop percentage,
      each routed to the other side with its payload as received. */
  lemma {:induction false} RunAfterFirst(r: Relay, xs: seq<Incoming>)
    requires !r.firstPacket && ValidDraws(xs)
    ensures Run(r, xs) == (r, Relayed(r.clientPort, r.serverPort, Survivors(xs, r.chanceToDrop)))
    decreases |xs|
  {
    if |xs| > 0 {
      TailDraws(xs);
      RunAfterFirst(r, xs[1..]);
      assert Forward(r, xs[0]).relay == r;
      RelayedStep(r, xs);
    }
  }

  /** From its start, the relay takes the port of the first datagram as the
      client's for good, and forwards as described by `RunAfterFirst`. */
  lemma {:induction false} RunFromStart(serverPort: int, chanceToDrop: int, xs: seq<Incoming>)
    requires |xs| > 0 && ValidDraws(xs)
    ensures Run(Start(serverPort, chanceToDrop), xs)
         == (Relay(serverPort, xs[0].d.port, chanceToDrop, false),
             Relayed(xs[0].d.port, serverPort, Survivors(xs, chanceToDrop)))
  {
    var learned := Relay(serverPort, xs[0].d.port, chanceToDrop, false);
    TailDraws(xs);
    RunAfterFirst(learned, xs[1..]);
    assert Forward(Start(serverPort, chanceToDrop), xs[0]).relay == learned;
    assert Forward(Start(serverPort, chanceToDrop), xs[0]) == Forward(learned, xs[0]);
    RelayedStep(learned, xs);
  }

  /** The first datagram's share of the reference description. */
  lemma {:induction false} RelayedStep(r: Relay, xs: seq<Incoming>)
    requires |xs| > 0 && 0 <= xs[0].draw < DRAW_RANGE && !r.firstPacket
    ensures var st := Forward(r, xs[0]);
      (if st.forwarded.Some? then [st.forwarded.value] else []) + Relayed(r.clientPort, r.serverPort, Survivors(xs[1..], r.chanceToDrop))
      == Relayed(r.clientPort, r.serverPort, Survivors(xs, r.chanceToDrop))
  {
    var st := Forward(r, xs[0]);
    var tail := Relayed(r.clientPort, r.serverPort, Survivors(xs[1..], r.chanceToDrop));
    var kept := Survivors(xs, r.chanceToDrop);
    if xs[0].draw >= r.chanceToDrop {
      assert kept == [xs[0]] + Survivors(xs[1..], r.chanceToDrop);
      assert kept[0] == xs[0] && kept[1..] == Survivors(xs[1..], r.chanceToDrop);
    } else {
      assert kept == Survivors(xs[1..], r.chanceToDrop);
      assert st.forwarded == None;
      assert [] + tail == tail;
    }
  }

  /** No draw reaches a drop percentage of 100 or more. */
  lemma {:induction false} NoSurvivors(xs: seq<Incoming>, chance: int)
    requires ValidDraws(xs) && chance >= DRAW_RANGE
    ensures Survivors(xs, chance) == []
    decreases |xs|
  {
    if |xs| > 0 {
      assert xs[0].draw < chance;
      TailDraws(xs);
      NoSurvivors(xs[1..], chance);
    }
  }

  /** Every draw reaches a drop percentage of 0 or less. */
  lemma {:induction false} AllSurvive(xs: seq<Incoming>, chance: int)
    requires ValidDraws(xs) && chance <= 0
    ensures Survivors(xs, chance) == xs
    decreases |xs|
  {
    if |xs| > 0 {
      assert xs[0].draw >= chance;
      TailDraws(xs);
      AllSurvive(xs[1..], chance);
      assert [xs[0]] + xs[1..] == xs;
    }
  }

  /** The first draw and the rest of a valid draw sequence are valid. */
  lemma TailDraws(xs: seq<Incoming>)
    requires |xs| > 0 && ValidDraws(xs)
    ensures 0 <= xs[0].draw < DRAW_RANGE && ValidDraws(xs[1..])
  {
    forall j | 0 <= j < |xs[1..]| ensures 0 <= xs[1..][j].draw < DRAW_RANGE {
      assert xs[1..][j] == xs[j + 1];
    }
  }

  /** With a drop percentage of 100 or more the relay forwards nothing,
      whether or not it knows the client's port yet. */
  lemma {:induction false} DropAll(r: Relay, xs: seq<Incoming>)
    requires ValidDraws(xs) && r.chanceToDrop >= DRAW_RANGE
    ensures Run(r, xs).1 == []
    decreases |xs|
  {
    if |xs| > 0 {
      TailDraws(xs);
      var st := Forward(r, xs[0]);
      DropAll(st.relay, xs[1..]);
    }
  }

  /** With a drop percentage of 0 or less the relay forwards every datagram;
      once it knows the client's port, each one routed to the other side. */
  lemma {:induction false} DropNone(r: Relay, xs: seq<Incoming>)
    requires ValidDraws(xs) && r.chanceToDrop <= 0
    ensures |Run(r, xs).1| == |xs|
    ensures !r.firstPacket ==> Run(r, xs).1 == Relayed(r.clientPort, r.serverPort, xs)
    decreases |xs|
  {
    if |xs| > 0 {
      TailDraws(xs);
      var st := Forward(r, xs[0]);
      DropNone(st.relay, xs[1..]);
      if !r.firstPacket {
        RunAfterFirst(r, xs);
        AllSurvive(xs, r.chanceToDrop);
      }
    }
  }

  /** The forwarded datagram for the j-th survivor carries its payload
      unchanged when it fit the buffer, and otherwise its first BUFFER_SIZE bytes. */
  lemma {:induction false} RelayedPayloads(client: int, server: int, xs: seq<Incoming>)
    ensures forall j :: 0 <= j < |xs| ==>
      && Relayed(client, server, xs)[j].payload == Received(xs[j].d.payload)
      && Relayed(client, server, xs)[j].addr == xs[j].d.addr
      && Relayed(client, server, xs)[j].port == (if xs[j].d.port == client then server else client)
    decreases |xs|
  {
    if |xs| > 0 {
      RelayedPayloads(client, server, xs[1..]);
      forall j | 1 <= j < |xs|
        ensures Relayed(client, server, xs)[j] == Relayed(client, server, xs[1..])[j - 1]
      {
      }
    }
  }
}

=== FILE: sender.dfy ===
/** The sending side of a transfer (`sendFile`): the wait for the acceptance
    of a write request, then one DATA block at a time, each followed by a
    wait for its ACK with the storm-avoidance skip. */
module Sender {
  import opened Net
  import opened Messages
  import opened Transport

  // ---------------------------------------------------------------------------
  // Chunking

  /** The payloads of the DATA blocks a file is sent as: full blocks while at
      least MAX_DATA_SIZE bytes remain, then one short (possibly empty) block. */
  function Chunks(file: seq<byte>): (cs: seq<seq<byte>>)
    ensures |cs| > 0
    decreases |file|
  {
    if |file| < MAX_DATA_SIZE then [file]
    else [file[..MAX_DATA_SIZE]] + Chunks(file[MAX_DATA_SIZE..])
  }

  /** A file of N bytes is sent as N / 1000 + 1 blocks; all but the last are
      full, the last is short (empty when N is a multiple of 1000), and
      together they are the file. */
  lemma {:induction false} ChunksShape(file: seq<byte>)
    ensures var cs := Chunks(file);
      && |cs| == |file| / MAX_DATA_SIZE + 1
      && (forall j :: 0 <= j < |cs| - 1 ==> |cs[j]| == MAX_DATA_SIZE)
      && |cs[|cs| - 1]| < MAX_DATA_SIZE
      && Concat(cs) == file
    decreases |file|
  {
    if |file| >= MAX_DATA_SIZE {
      var cs := Chunks(file);
      var tail := file[MAX_DATA_SIZE..];
      ChunksShape(tail);
      assert cs[1..] == Chunks(tail);
      assert file[..MAX_DATA_SIZE] + tail == file;
      assert forall j :: 1 <= j < |cs| ==> cs[j] == Chunks(tail)[j - 1];
    }
  }

  function Concat(cs: seq<seq<byte>>): seq<byte>
  {
    if |cs| == 0 then [] else cs[0] + Concat(cs[1..])
  }

  /** The DATA messages that carry chunks `cs` after block `b`: numbered b+1, b+2, ... */
  function DataBlocks(b: int, cs: seq<seq<byte>>): (ms: seq<Message>)
    ensures |ms| == |cs|
    decreases |cs|
  {
    if |cs| == 0 then [] else [DataMessage(b + 1, cs[0])] + DataBlocks(b + 1, cs[1..])
  }

  lemma {:induction false} DataBlocksNumbered(b: int, cs: seq<seq<byte>>)
    ensures forall j :: 0 <= j < |cs| ==> DataBlocks(b, cs)[j] == DataMessage(b + 1 + j, cs[j])
    decreases |cs|
  {
    if |cs| > 0 {
      DataBlocksNumbered(b + 1, cs[1..]);
      forall j | 0 < j < |cs|
        ensures DataBlocks(b, cs)[j] == DataMessage(b + 1 + j, cs[j])
      {
        assert DataBlocks(b, cs)[j] == DataBlocks(b + 1, cs[1..])[j - 1];
      }
    }
  }

  /** The ACKs of DATA messages `ms`, in order. */
  function AcksOf(ms: seq<Message>): (acks: seq<Message>)
    ensures |acks| == |ms|
  {
    if |ms| == 0 then [] else [AckMessage(ms[0].blockNum)] + AcksOf(ms[1..])
  }

  /** Every ACK passes the size check. */
  ghost predicate AcksFit(size: Sizer)
  {
    forall n: int :: size(AckMessage(n)) <= MAX_PACKET_SIZE
  }

  /** The first DATA block of `rest` and the blocks after it. */
  lemma BlocksHead(b: int, rest: seq<byte>)
    ensures var ms := DataBlocks(b, Chunks(rest));
      && ms[0] == DataMessage(b + 1, Chunks(rest)[0])
      && AcksOf(ms) == [AckMessage(b + 1)] + AcksOf(ms[1..])
      && (|rest| >= MAX_DATA_SIZE ==>
            && Chunks(rest)[0] == rest[..MAX_DATA_SIZE]
            && ms[1..] == DataBlocks(b + 1, Chunks(rest[MAX_DATA_SIZE..])))
      && (|rest| < MAX_DATA_SIZE ==> Chunks(rest)[0] == rest && ms[1..] == [])
  {
    var cs := Chunks(rest);
    if |rest| >= MAX_DATA_SIZE {
      assert cs[1..] == Chunks(rest[MAX_DATA_SIZE..]);
    }
  }

  // ---------------------------------------------------------------------------
  // Retry schedules

  function Pow2(i: nat): (r: nat)
    ensures r >= 1
  {
    if i == 0 then 1 else 2 * Pow2(i - 1)
  }

  /** The timeout of the i-th wait for the acceptance of a write request:
      TIMEOUT_SEND for the first, doubling with each attempt. */
  function AcceptTimeout(i: nat): nat
  {
    if i == 0 then TIMEOUT_SEND else 2 * AcceptTimeout(i - 1)
  }

  /** The acceptance timeout is TIMEOUT_SEND * 2^i, the source's formula. */
  lemma {:induction false} AcceptTimeoutPower(i: nat)
    ensures AcceptTimeout(i) == TIMEOUT_SEND * Pow2(i)
  {
    if i > 0 {
      AcceptTimeoutPower(i - 1);
    }
  }

  /** The timeouts of m successive acceptance waits starting at attempt i. */
  function AcceptWaits(i: nat, m: nat): (ts: seq<nat>)
    ensures |ts| == m
    decreases m
  {
    if m == 0 then [] else [AcceptTimeout(i)] + AcceptWaits(i + 1, m - 1)
  }

  /** The whole acceptance schedule doubles from TIMEOUT_SEND. */
  lemma AcceptWaitsDouble()
    ensures AcceptWaits(0, ACCEPT_ATTEMPTS) == [50, 100, 200, 400, 800]
  {
  }

  /** Whether the retry counter value n leads to a resend: every value
      congruent to STORM_PERIOD - 1 is absorbed. */
  predicate ResendsAt(n: nat)
  {
    n % STORM_PERIOD != STORM_PERIOD - 1
  }

  /** #{ j in [a, a + k) : j % 5 != 4 }: the resends of k failed ACK waits
      that start at retry count a. */
  function Kept(a: nat, k: nat): nat
    decreases k
  {
    if k == 0 then 0 else (if ResendsAt(a) then 1 else 0) + Kept(a + 1, k - 1)
  }

  /** Any five consecutive failures resend exactly four times. */
  lemma {:induction false} KeptPeriod(a: nat, q: nat)
    ensures Kept(a, STORM_PERIOD * q) == 4 * q
    decreases q
  {
    if q > 0 {
      calc {
        Kept(a, STORM_PERIOD * q);
        { KeptSplit(a, STORM_PERIOD, STORM_PERIOD * (q - 1)); }
        Kept(a, STORM_PERIOD) + Kept(a + STORM_PERIOD, STORM_PERIOD * (q - 1));
        { KeptPeriod(a + STORM_PERIOD, q - 1); KeptFive(a); }
        4 + 4 * (q - 1);
      }
    }
  }

  lemma {:induction false} KeptSplit(a: nat, k1: nat, k2: nat)
    ensures Kept(a, k1 + k2) == Kept(a, k1) + Kept(a + k1, k2)
    decreases k1
  {
    if k1 > 0 {
      KeptSplit(a + 1, k1 - 1, k2);
    }
  }

  lemma KeptFive(a: nat)
    ensures Kept(a, STORM_PERIOD) == 4
  {
    assert Kept(a, 5) == (if ResendsAt(a) then 1 else 0) + Kept(a + 1, 4);
    assert Kept(a + 1, 4) == (if ResendsAt(a + 1) then 1 else 0) + Kept(a + 2, 3);
    assert Kept(a + 2, 3) == (if ResendsAt(a + 2) then 1 else 0) + Kept(a + 3, 2);
    assert Kept(a + 3, 2) == (if ResendsAt(a + 3) then 1 else 0) + Kept(a + 4, 1);
    assert Kept(a + 4, 1) == (if ResendsAt(a + 4) then 1 else 0);
    ShiftResidue(a, 0);
    ShiftResidue(a, 1);
    ShiftResidue(a, 2);
    ShiftResidue(a, 3);
    ShiftResidue(a, 4);
  }

  /** Whether a + j resends depends only on the residue of a. */
  lemma ShiftResidue(a: nat, j: nat)
    requires j < 5
    ensures ResendsAt(a + j) <==> a % 5 + j != 4 && a % 5 + j != 9
  {
    var q := a / 5;
    var r := a % 5;
    if r + j < 5 {
      assert a + j == 5 * q + (r + j);
      ModFive(q, r + j);
    } else {
      assert a + j == 5 * (q + 1) + (r + j - 5);
      ModFive(q + 1, r + j - 5);
    }
  }

  lemma ModFive(q: nat, s: nat)
    requires s < 5
    ensures (5 * q + s) % 5 == s
  {
  }

  predicate Acknowledges(inb: Inbound, n: int)
  {
    inb.Got? && inb.m.opCode == ACK && inb.m.blockNum == n
  }

  /** The next event is an ACK of the current block from a source the
      session admits. */
  predicate AckComesNext(e: Engine)
  {
    var ev := NextEvent(e.script);
    ev.Packet? && Admits(e.session, ev.addr, ev.port) && ev.msg == Some(AckMessage(e.session.blockNumber))
  }

  /** The most recent inbound message is an ACK carrying block number n. */
  predicate AckedLast(s: Session, n: int)
  {
    s.current.Some? && s.current.value.opCode == ACK && s.current.value.blockNum == n
  }

  // ---------------------------------------------------------------------------
  // The wait for the acceptance of a write request: the loop at
  // app/TFTP.java:164-178, one attempt split over AwaitAccept (the wait),
  // AcceptAfter (what came), AcceptResent (the resend), AcceptRetry (the next)

  /** The wait for ACK 0 after issuing a write request, from attempt i on:
      attempt i waits TIMEOUT_SEND * 2^i; every failed wait resends the
      request and then counts one retry; only an ACK carrying the current
      block number ends it well; exhausting it reports "Ack never received".
      It never sends a new message. */
  function AwaitAccept(e: Engine, size: Sizer, i: nat): (r: Run<Outcome>)
    requires i <= ACCEPT_ATTEMPTS
    requires e.session.lastSent.Some?
    ensures r.engine.session.lastSent == e.session.lastSent
    ensures r.engine.session.blockNumber == e.session.blockNumber
    ensures |r.engine.script| <= |e.script|
    ensures Fresh(r.out) == []
    ensures r.value == Completed ==> AckedLast(r.engine.session, e.session.blockNumber)
    ensures i < ACCEPT_ATTEMPTS && AckComesNext(e) ==>
              r.value == Completed && r.out == [Wait(AcceptTimeout(i))] && r.engine.script == Rest(e.script)
    ensures r.value == Aborted(Exhausted) ==> EndsWith(r.out, SendError(AckNeverReceived))
    decreases ACCEPT_ATTEMPTS - i, 3
  {
    if i == ACCEPT_ATTEMPTS then
      ProjectShort(SendError(AckNeverReceived), SendError(AckNeverReceived));
      Run(e, [SendError(AckNeverReceived)], Aborted(Exhausted))
    else AcceptAfter(Receive(e, AcceptTimeout(i)), size, i)
  }

  /** The rest of acceptance attempt i once its wait returned `got`. */
  function AcceptAfter(got: Run<Inbound>, size: Sizer, i: nat): (r: Run<Outcome>)
    requires i < ACCEPT_ATTEMPTS
    requires got.engine.session.lastSent.Some?
    requires Fresh(got.out) == []
    requires got.value.Got? ==> got.engine.session.current == Some(got.value.m)
    ensures r.engine.session.lastSent == got.engine.session.lastSent
    ensures r.engine.session.blockNumber == got.engine.session.blockNumber
    ensures |r.engine.script| <= |got.engine.script|
    ensures Fresh(r.out) == []
    ensures r.value == Completed ==> AckedLast(r.engine.session, got.engine.session.blockNumber)
    ensures r.value == Aborted(Exhausted) ==> EndsWith(r.out, SendError(AckNeverReceived))
    decreases ACCEPT_ATTEMPTS - i, 2
  {
    if got.value.PeerAbort? then Run(got.engine, got.out, Aborted(PeerError(got.value.errMsg)))
    else if Acknowledges(got.value, got.engine.session.blockNumber) then Run(got.engine, got.out, Completed)
    else AcceptResent(got.out, Resend(got.engine, size), size, i)
  }

  /** The rest of a failed acceptance attempt i once the request was resent
      (`sent`) after the actions `pre`: a refused resend ends the wait,
      otherwise one retry is counted and the next attempt follows. */
  function AcceptResent(pre: seq<Out>, sent: Run<bool>, size: Sizer, i: nat): (r: Run<Outcome>)
    requires i < ACCEPT_ATTEMPTS
    requires sent.engine.session.lastSent.Some?
    requires Fresh(pre) == [] && Fresh(sent.out) == []
    ensures r.engine.session.lastSent == sent.engine.session.lastSent
    ensures r.engine.session.blockNumber == sent.engine.session.blockNumber
    ensures |r.engine.script| <= |sent.engine.script|
    ensures Fresh(r.out) == []
    ensures r.value == Completed ==> AckedLast(r.engine.session, sent.engine.session.blockNumber)
    ensures r.value == Aborted(Exhausted) ==> EndsWith(r.out, SendError(AckNeverReceived))
    decreases ACCEPT_ATTEMPTS - i, 1
  {
    FreshAppend(pre, sent.out);
    if !sent.value then Run(sent.engine, pre + sent.out, Aborted(Refused))
    else AcceptRetry(pre + sent.out, WithRetry(sent.engine, sent.engine.session.numOfRetry + 1), size, i)
  }

  /** The next acceptance attempt after the actions `pre` of a failed
      attempt i, once its retry was counted (`counted`). */
  function AcceptRetry(pre: seq<Out>, counted: Engine, size: Sizer, i: nat): (r: Run<Outcome>)
    requires i < ACCEPT_ATTEMPTS
    requires counted.session.lastSent.Some?
    requires Fresh(pre) == []
    ensures r.engine.session.lastSent == counted.session.lastSent
    ensures r.engine.session.blockNumber == counted.session.blockNumber
    ensures |r.engine.script| <= |counted.script|
    ensures Fresh(r.out) == []
    ensures r.value == Completed ==> AckedLast(r.engine.session, counted.session.blockNumber)
    ensures r.value == Aborted(Exhausted) ==> EndsWith(r.out, SendError(AckNeverReceived))
    decreases ACCEPT_ATTEMPTS - i, 0
  {
    var next := AwaitAccept(counted, size, i + 1);
    FreshAppend(pre, next.out);
    EndsWithAppend(pre, next.out, SendError(AckNeverReceived));
    After(pre, next)
  }

  // ---------------------------------------------------------------------------
  // The wait for the ACK of one DATA block: the loop at app/TFTP.java:201-217,
  // one attempt split over AwaitAck, AckAfter, AckRetry and AckResent

  /** The wait for the ACK of the block just sent, from attempt i on: every
      failed wait counts one retry and resends the block unless the count
      before the increment is absorbed by the storm-avoidance rule; only an
      ACK carrying the current block number ends it well; exhausting it
      reports "Ack never received". It never sends a new message. */
  function AwaitAck(e: Engine, size: Sizer, i: nat): (r: Run<Outcome>)
    requires i <= SEND_ATTEMPTS
    requires e.session.lastSent.Some?
    ensures r.engine.session.lastSent == e.session.lastSent
    ensures r.engine.session.blockNumber == e.session.blockNumber
    ensures |r.engine.script| <= |e.script|
    ensures Fresh(r.out) == []
    ensures r.value == Completed ==> AckedLast(r.engine.session, e.session.blockNumber)
    ensures i < SEND_ATTEMPTS && AckComesNext(e) ==>
              r.value == Completed && r.out == [Wait(TIMEOUT_SEND)] && r.engine.script == Rest(e.script)
    ensures r.value == Aborted(Exhausted) ==> EndsWith(r.out, SendError(AckNeverReceived))
    decreases SEND_ATTEMPTS - i, 3
  {
    if i == SEND_ATTEMPTS then
      ProjectShort(SendError(AckNeverReceived), SendError(AckNeverReceived));
      Run(e, [SendError(AckNeverReceived)], Aborted(Exhausted))
    else AckAfter(Receive(e, TIMEOUT_SEND), size, i)
  }

  /** The rest of ACK-wait attempt i once its wait returned `got`. */
  function AckAfter(got: Run<Inbound>, size: Sizer, i: nat): (r: Run<Outcome>)
    requires i < SEND_ATTEMPTS
    requires got.engine.session.lastSent.Some?
    requires Fresh(got.out) == []
    requires got.value.Got? ==> got.engine.session.current == Some(got.value.m)
    ensures r.engine.session.lastSent == got.engine.session.lastSent
    ensures r.engine.session.blockNumber == got.engine.session.blockNumber
    ensures |r.engine.script| <= |got.engine.script|
    ensures Fresh(r.out) == []
    ensures r.value == Completed ==> AckedLast(r.engine.session, got.engine.session.blockNumber)
    ensures r.value == Aborted(Exhausted) ==> EndsWith(r.out, SendError(AckNeverReceived))
    decreases SEND_ATTEMPTS - i, 2
  {
    if got.value.PeerAbort? then Run(got.engine, got.out, Aborted(PeerError(got.value.errMsg)))
    else if Acknowledges(got.value, got.engine.session.blockNumber) then Run(got.engine, got.out, Completed)
    else
      var n := got.engine.session.numOfRetry;
      AckRetry(got.out, WithRetry(got.engine, n + 1), size, i, n)
  }

  /** The rest of a failed ACK-wait attempt i after the actions `pre`, once
      the retry count n was incremented (`counted`): the block is resent
      unless the storm-avoidance rule absorbs count n. */
  function AckRetry(pre: seq<Out>, counted: Engine, size: Sizer, i: nat, n: nat): (r: Run<Outcome>)
    requires i < SEND_ATTEMPTS
    requires counted.session.lastSent.Some?
    requires Fresh(pre) == []
    ensures r.engine.session.lastSent == counted.session.lastSent
    ensures r.engine.session.blockNumber == counted.session.blockNumber
    ensures |r.engine.script| <= |counted.script|
    ensures Fresh(r.out) == []
    ensures r.value == Completed ==> AckedLast(r.engine.session, counted.session.blockNumber)
    ensures r.value == Aborted(Exhausted) ==> EndsWith(r.out, SendError(AckNeverReceived))
    decreases SEND_ATTEMPTS - i, 1
  {
    if ResendsAt(n) then AckResent(pre, Resend(counted, size), size, i)
    else
      var next := AwaitAck(counted, size, i + 1);
      FreshAppend(pre, next.out);
      EndsWithAppend(pre, next.out, SendError(AckNeverReceived));
      After(pre, next)
  }

  /** The rest of a failed ACK-wait attempt i once the block was resent
      (`sent`) after the actions `pre`: a refused resend ends the wait,
      otherwise the next attempt follows. */
  function AckResent(pre: seq<Out>, sent: Run<bool>, size: Sizer, i: nat): (r: Run<Outcome>)
    requires i < SEND_ATTEMPTS
    requires sent.engine.session.lastSent.Some?
    requires Fresh(pre) == [] && Fresh(sent.out) == []
    ensures r.engine.session.lastSent == sent.engine.session.lastSent
    ensures r.engine.session.blockNumber == sent.engine.session.blockNumber
    ensures |r.engine.script| <= |sent.engine.script|
    ensures Fresh(r.out) == []
    ensures r.value == Completed ==> AckedLast(r.engine.session, sent.engine.session.blockNumber)
    ensures r.value == Aborted(Exhausted) ==> EndsWith(r.out, SendError(AckNeverReceived))
    decreases SEND_ATTEMPTS - i, 0
  {
    FreshAppend(pre, sent.out);
    if !sent.value then Run(sent.engine, pre + sent.out, Aborted(Refused))
    else
      var next := AwaitAck(sent.engine, size, i + 1);
      FreshAppend(pre + sent.out, next.out);
      EndsWithAppend(pre + sent.out, next.out, SendError(AckNeverReceived));
      After(pre + sent.out, next)
  }

  // ---------------------------------------------------------------------------
  // The data loop and sendFile: SendChunks and BlockAfter are the loop at
  // app/TFTP.java:184-221

  /** Sends the unread part `rest` of the file, one block per iteration: the
      new messages it sends are a prefix of the DATA blocks of `rest`
      numbered on from the current block number, all of them when it
      completes, and the block number has then advanced by their count. */
  function SendChunks(e: Engine, size: Sizer, rest: seq<byte>): (r: Run<Outcome>)
    ensures Fresh(r.out) <= DataBlocks(e.session.blockNumber, Chunks(rest))
    ensures r.value == Completed ==>
              && Fresh(r.out) == DataBlocks(e.session.blockNumber, Chunks(rest))
              && r.engine.session.blockNumber == e.session.blockNumber + |Chunks(rest)|
    ensures r.value == Aborted(Exhausted) ==> EndsWith(r.out, SendError(AckNeverReceived))
    decreases |rest|, 2
  {
    var b := e.session.blockNumber + 1;
    var chunk := if |rest| < MAX_DATA_SIZE then rest else rest[..MAX_DATA_SIZE];
    assert chunk == Chunks(rest)[0];
    var data := DataMessage(b, chunk);
    var sent := SendMessage(e.(session := e.session.(blockNumber := b)), size, data, false);
    if !sent.value then
      DataBlocksFirst(b - 1, Chunks(rest));
      Run(sent.engine, sent.out, Aborted(Refused))
    else BlockAfter(sent.out, AwaitAck(sent.engine, size, 0), size, b, rest)
  }

  /** The rest of one iteration of the data loop once block b, the first
      block of `rest`, was sent (actions `pre`) and its ACK wait returned `acked`. */
  function BlockAfter(pre: seq<Out>, acked: Run<Outcome>, size: Sizer, b: nat, rest: seq<byte>): (r: Run<Outcome>)
    requires Fresh(pre) == [DataMessage(b, Chunks(rest)[0])]
    requires Fresh(acked.out) == []
    requires acked.engine.session.blockNumber == b
    requires acked.value == Aborted(Exhausted) ==> EndsWith(acked.out, SendError(AckNeverReceived))
    ensures Fresh(r.out) <= DataBlocks(b - 1, Chunks(rest))
    ensures r.value == Completed ==>
              && Fresh(r.out) == DataBlocks(b - 1, Chunks(rest))
              && r.engine.session.blockNumber == b - 1 + |Chunks(rest)|
    ensures r.value == Aborted(Exhausted) ==> EndsWith(r.out, SendError(AckNeverReceived))
    decreases |rest|, 1
  {
    FreshAppend(pre, acked.out);
    EndsWithAppend(pre, acked.out, SendError(AckNeverReceived));
    if acked.value.Aborted? || |rest| < MAX_DATA_SIZE then
      DataBlocksFirst(b - 1, Chunks(rest));
      After(pre, acked)
    else
      var next := SendChunks(acked.engine, size, rest[MAX_DATA_SIZE..]);
      BlockThenRest(pre + acked.out, next, b, rest);
      After(pre + acked.out, next)
  }

  /** Block b, the first of `rest`, sent and acknowledged (actions `pre`),
      followed by the data loop over the rest of the file (`next`). */
  lemma BlockThenRest(pre: seq<Out>, next: Run<Outcome>, b: nat, rest: seq<byte>)
    requires |rest| >= MAX_DATA_SIZE
    requires Fresh(pre) == [DataMessage(b, Chunks(rest)[0])]
    requires Fresh(next.out) <= DataBlocks(b, Chunks(rest[MAX_DATA_SIZE..]))
    requires next.value == Completed ==>
               && Fresh(next.out) == DataBlocks(b, Chunks(rest[MAX_DATA_SIZE..]))
               && next.engine.session.blockNumber == b + |Chunks(rest[MAX_DATA_SIZE..])|
    requires next.value == Aborted(Exhausted) ==> EndsWith(next.out, SendError(AckNeverReceived))
    ensures var r := After(pre, next);
      && Fresh(r.out) <= DataBlocks(b - 1, Chunks(rest))
      && (r.value == Completed ==>
            && Fresh(r.out) == DataBlocks(b - 1, Chunks(rest))
            && r.engine.session.blockNumber == b - 1 + |Chunks(rest)|)
      && (r.value == Aborted(Exhausted) ==> EndsWith(r.out, SendError(AckNeverReceived)))
  {
    FreshAppend(pre, next.out);
    EndsWithAppend(pre, next.out, SendError(AckNeverReceived));
    DataBlocksNext(b - 1, rest, Fresh(next.out));
  }

  /** The first DATA block alone is a prefix of the blocks of a file, and
      all of them when the file fits in one block. */
  lemma DataBlocksFirst(b: int, cs: seq<seq<byte>>)
    requires |cs| > 0
    ensures [DataMessage(b + 1, cs[0])] <= DataBlocks(b, cs)
    ensures |cs| == 1 ==> [DataMessage(b + 1, cs[0])] == DataBlocks(b, cs)
  {
  }

  /** Block b+1 followed by (a prefix of) the blocks of the rest of the file
      after its first chunk is (a prefix of) the blocks of the file. */
  lemma DataBlocksNext(b: int, rest: seq<byte>, later: seq<Message>)
    requires |rest| >= MAX_DATA_SIZE
    ensures var cs := Chunks(rest);
      && (later <= DataBlocks(b + 1, Chunks(rest[MAX_DATA_SIZE..])) ==> [DataMessage(b + 1, cs[0])] + later <= DataBlocks(b, cs))
      && (later == DataBlocks(b + 1, Chunks(rest[MAX_DATA_SIZE..])) ==> [DataMessage(b + 1, cs[0])] + later == DataBlocks(b, cs))
      && |cs| == 1 + |Chunks(rest[MAX_DATA_SIZE..])|
  {
    var cs := Chunks(rest);
    assert cs[1..] == Chunks(rest[MAX_DATA_SIZE..]);
    assert DataBlocks(b, cs) == [DataMessage(b + 1, cs[0])] + DataBlocks(b + 1, cs[1..]);
  }

  /** Whether this side issued a write request and must first wait for its acceptance. */
  predicate AwaitsAcceptance(s: Session)
  {
    s.lastSent.Some? && s.lastSent.value.opCode == WRQ
  }

  /** `sendFile`: the acceptance wait when this side issued a WRQ, then the data loop. */
  function SendFile(e: Engine, size: Sizer, file: seq<byte>): (r: Run<Outcome>)
    ensures r.value == Completed ==> Fresh(r.out) == DataBlocks(e.session.blockNumber, Chunks(file))
  {
    if AwaitsAcceptance(e.session) then
      var accepted := AwaitAccept(e, size, 0);
      if accepted.value.Aborted? then accepted
      else
        var sent := SendChunks(accepted.engine, size, file);
        FreshAppend(accepted.out, sent.out);
        After(accepted.out, sent)
    else SendChunks(e, size, file)
  }
}

=== FILE: sender_props.dfy ===
/** Properties of the sending side: the acceptance wait's doubling schedule,
    the ACK wait's retry ceiling and storm-avoidance count, behaviour under
    total loss, and the DATA blocks a transfer puts on the wire. Each wait
    loop is proved in the four steps its definition is written in. */
module SenderProps {
  import opened Net
  import opened Messages
  import opened Transport
  import opened Sender

  // ---------------------------------------------------------------------------
  // The ACK wait: retries, waits and resends

  /** The wait ended without success and without a reply from the peer. */
  predicate Stopped(v: Outcome)
  {
    v == Aborted(Exhausted) || v == Aborted(Refused)
  }

  /** The bookkeeping of an ACK wait `r` entered at attempt i with retry
      count n0, after k = r's retry count - n0 failed attempts: it waited
      k + 1 times (k if it stopped), always for TIMEOUT_SEND and at most
      SEND_ATTEMPTS - i times; it resent the block Kept(n0, k) times (one
      fewer if the last resend was refused); exhaustion means exactly
      SEND_ATTEMPTS - i failures. */
  predicate AckTally(n0: nat, i: nat, r: Run<Outcome>)
  {
    && r.engine.session.numOfRetry >= n0
    && |Waits(r.out)| == r.engine.session.numOfRetry - n0 + (if Stopped(r.value) then 0 else 1)
    && Resends(r.out) + (if r.value == Aborted(Refused) then 1 else 0) == Kept(n0, r.engine.session.numOfRetry - n0)
    && (r.value == Aborted(Exhausted) ==> r.engine.session.numOfRetry == n0 + SEND_ATTEMPTS - i)
    && |Waits(r.out)| <= SEND_ATTEMPTS - i
    && (forall t :: t in Waits(r.out) ==> t == TIMEOUT_SEND)
  }

  lemma {:induction false} AckWaitTally(e: Engine, size: Sizer, i: nat)
    requires i <= SEND_ATTEMPTS
    requires e.session.lastSent.Some?
    ensures AckTally(e.session.numOfRetry, i, AwaitAck(e, size, i))
    decreases SEND_ATTEMPTS - i, 3
  {
    if i < SEND_ATTEMPTS {
      AckAfterTally(Receive(e, TIMEOUT_SEND), size, i);
    } else {
      ProjectShort(SendError(AckNeverReceived), SendError(AckNeverReceived));
    }
  }

  lemma {:induction false} AckAfterTally(got: Run<Inbound>, size: Sizer, i: nat)
    requires i < SEND_ATTEMPTS
    requires got.engine.session.lastSent.Some?
    requires Fresh(got.out) == [] && Waits(got.out) == [TIMEOUT_SEND] && Resends(got.out) == 0
    requires got.value.Got? ==> got.engine.session.current == Some(got.value.m)
    ensures AckTally(got.engine.session.numOfRetry, i, AckAfter(got, size, i))
    decreases SEND_ATTEMPTS - i, 2
  {
    if !got.value.PeerAbort? && !Acknowledges(got.value, got.engine.session.blockNumber) {
      var n := got.engine.session.numOfRetry;
      AckRetryTally(got.out, WithRetry(got.engine, n + 1), size, i, n);
    }
  }

  lemma {:induction false} AckRetryTally(pre: seq<Out>, counted: Engine, size: Sizer, i: nat, n: nat)
    requires i < SEND_ATTEMPTS
    requires counted.session.lastSent.Some?
    requires Fresh(pre) == [] && Waits(pre) == [TIMEOUT_SEND] && Resends(pre) == 0
    requires counted.session.numOfRetry == n + 1
    ensures AckTally(n, i, AckRetry(pre, counted, size, i, n))
    decreases SEND_ATTEMPTS - i, 1
  {
    if ResendsAt(n) {
      AckResentTally(pre, Resend(counted, size), size, i, n);
    } else {
      AckWaitTally(counted, size, i + 1);
      AckTallyStep(n, i, pre, AwaitAck(counted, size, i + 1), 0);
    }
  }

  lemma {:induction false} AckResentTally(pre: seq<Out>, sent: Run<bool>, size: Sizer, i: nat, n: nat)
    requires i < SEND_ATTEMPTS
    requires sent.engine.session.lastSent.Some?
    requires Fresh(pre) == [] && Waits(pre) == [TIMEOUT_SEND] && Resends(pre) == 0
    requires Fresh(sent.out) == [] && Waits(sent.out) == [] && Resends(sent.out) == (if sent.value then 1 else 0)
    requires sent.engine.session.numOfRetry == n + 1 && ResendsAt(n)
    ensures AckTally(n, i, AckResent(pre, sent, size, i))
    decreases SEND_ATTEMPTS - i, 0, 1
  {
    WaitsAppend(pre, sent.out);
    ResendsAppend(pre, sent.out);
    if sent.value {
      AckRetriedTally(pre, sent, size, i, n);
    } else {
      RefusedTally(n, i, pre + sent.out, sent.engine);
      assert AckResent(pre, sent, size, i) == Run(sent.engine, pre + sent.out, Aborted(Refused));
    }
  }

  lemma {:induction false} AckRetriedTally(pre: seq<Out>, sent: Run<bool>, size: Sizer, i: nat, n: nat)
    requires i < SEND_ATTEMPTS
    requires sent.engine.session.lastSent.Some? && sent.value
    requires Fresh(pre) == [] && Fresh(sent.out) == []
    requires Waits(pre + sent.out) == [TIMEOUT_SEND] && Resends(pre + sent.out) == 1
    requires sent.engine.session.numOfRetry == n + 1 && ResendsAt(n)
    ensures AckTally(n, i, AckResent(pre, sent, size, i))
    decreases SEND_ATTEMPTS - i, 0, 0
  {
    var next := AwaitAck(sent.engine, size, i + 1);
    AckWaitTally(sent.engine, size, i + 1);
    AckTallyStep(n, i, pre + sent.out, next, 1);
    assert AckResent(pre, sent, size, i) == After(pre + sent.out, next);
  }

  /** A refused resend after the first failed wait keeps the tally. */
  lemma RefusedTally(n: nat, i: nat, o: seq<Out>, e: Engine)
    requires i < SEND_ATTEMPTS
    requires Waits(o) == [TIMEOUT_SEND] && Resends(o) == 0 && e.session.numOfRetry == n + 1 && ResendsAt(n)
    ensures AckTally(n, i, Run(e, o, Aborted(Refused)))
  {
    assert Kept(n, 1) == 1;
  }

  /** One failed attempt (one wait and `extra` resends, in `pre`) followed
      by the rest of the wait keeps the tally. */
  lemma AckTallyStep(n: nat, i: nat, pre: seq<Out>, next: Run<Outcome>, extra: nat)
    requires i < SEND_ATTEMPTS
    requires Waits(pre) == [TIMEOUT_SEND] && Resends(pre) == extra
    requires extra == (if ResendsAt(n) then 1 else 0)
    requires AckTally(n + 1, i + 1, next)
    ensures AckTally(n, i, After(pre, next))
  {
    ProjectAppend(pre, next.out);
    var k := next.engine.session.numOfRetry - (n + 1);
    assert Kept(n, k + 1) == extra + Kept(n + 1, k);
  }

  /** An exhausted ACK wait waited SEND_ATTEMPTS times, counted as many
      retries, and resent the block eight times: two of the ten failures
      were absorbed by the storm-avoidance rule. */
  lemma ExhaustedAckWaitResendsEight(e: Engine, size: Sizer)
    requires e.session.lastSent.Some?
    ensures var r := AwaitAck(e, size, FIRST_ATTEMPT);
      r.value == Aborted(Exhausted) ==>
        && Resends(r.out) == 8
        && |Waits(r.out)| == SEND_ATTEMPTS
        && r.engine.session.numOfRetry == e.session.numOfRetry + SEND_ATTEMPTS
  {
    var r := AwaitAck(e, size, FIRST_ATTEMPT);
    AckWaitTally(e, size, FIRST_ATTEMPT);
    if r.value == Aborted(Exhausted) {
      ExhaustedTally(e.session.numOfRetry, r);
    }
  }

  lemma ExhaustedTally(n0: nat, r: Run<Outcome>)
    requires AckTally(n0, FIRST_ATTEMPT, r) && r.value == Aborted(Exhausted)
    ensures Resends(r.out) == 8 && |Waits(r.out)| == SEND_ATTEMPTS
    ensures r.engine.session.numOfRetry == n0 + SEND_ATTEMPTS
  {
    KeptPeriod(n0, 2);
    assert r.engine.session.numOfRetry - n0 == STORM_PERIOD * 2;
  }

  // ---------------------------------------------------------------------------
  // The ACK wait: how it ends

  /** When the block last sent passed the size check, the ACK wait's resends
      are never refused; under total loss the wait is exhausted. */
  lemma {:induction false} AckWaitOutcome(e: Engine, size: Sizer, i: nat)
    requires i <= SEND_ATTEMPTS
    requires e.session.lastSent.Some? && Fits(e.session, size)
    ensures AwaitAck(e, size, i).value != Aborted(Refused)
    ensures Silent(e.script) ==> AwaitAck(e, size, i).value == Aborted(Exhausted)
    decreases SEND_ATTEMPTS - i, 3
  {
    if i < SEND_ATTEMPTS {
      if Silent(e.script) {
        SilentRest(e.script);
      }
      AckAfterOutcome(Receive(e, TIMEOUT_SEND), size, i);
    }
  }

  lemma {:induction false} AckAfterOutcome(got: Run<Inbound>, size: Sizer, i: nat)
    requires i < SEND_ATTEMPTS
    requires got.engine.session.lastSent.Some? && Fits(got.engine.session, size)
    requires Fresh(got.out) == []
    requires got.value.Got? ==> got.engine.session.current == Some(got.value.m)
    ensures AckAfter(got, size, i).value != Aborted(Refused)
    ensures got.value == Nothing && Silent(got.engine.script) ==> AckAfter(got, size, i).value == Aborted(Exhausted)
    decreases SEND_ATTEMPTS - i, 2
  {
    if !got.value.PeerAbort? && !Acknowledges(got.value, got.engine.session.blockNumber) {
      var n := got.engine.session.numOfRetry;
      var counted := WithRetry(got.engine, n + 1);
      AckRetryOutcome(got.out, counted, size, i, n);
      assert AckAfter(got, size, i) == AckRetry(got.out, counted, size, i, n);
    }
  }

  lemma {:induction false} AckRetryOutcome(pre: seq<Out>, counted: Engine, size: Sizer, i: nat, n: nat)
    requires i < SEND_ATTEMPTS
    requires counted.session.lastSent.Some? && Fits(counted.session, size)
    requires Fresh(pre) == []
    ensures AckRetry(pre, counted, size, i, n).value != Aborted(Refused)
    ensures Silent(counted.script) ==> AckRetry(pre, counted, size, i, n).value == Aborted(Exhausted)
    decreases SEND_ATTEMPTS - i, 1
  {
    if ResendsAt(n) {
      AckResentOutcome(pre, Resend(counted, size), size, i);
    } else {
      AckWaitOutcome(counted, size, i + 1);
    }
  }

  lemma {:induction false} AckResentOutcome(pre: seq<Out>, sent: Run<bool>, size: Sizer, i: nat)
    requires i < SEND_ATTEMPTS
    requires sent.engine.session.lastSent.Some? && Fits(sent.engine.session, size) && sent.value
    requires Fresh(pre) == [] && Fresh(sent.out) == []
    ensures AckResent(pre, sent, size, i).value != Aborted(Refused)
    ensures Silent(sent.engine.script) ==> AckResent(pre, sent, size, i).value == Aborted(Exhausted)
    decreases SEND_ATTEMPTS - i, 0
  {
    AckWaitOutcome(sent.engine, size, i + 1);
    assert AckResent(pre, sent, size, i).value == AwaitAck(sent.engine, size, i + 1).value;
  }

  // ---------------------------------------------------------------------------
  // The acceptance wait

  /** The bookkeeping of an acceptance wait `r` entered at attempt i with
      retry count n0: its waits follow the doubling schedule from attempt i,
      at most ACCEPT_ATTEMPTS - i of them, one more than its resends unless
      exhausted; every resend counted one retry; exhaustion means the whole
      schedule was waited, the request resent once per attempt. */
  predicate AcceptTally(n0: nat, i: nat, r: Run<Outcome>)
  {
    && Waits(r.out) == AcceptWaits(i, |Waits(r.out)|)
    && |Waits(r.out)| <= ACCEPT_ATTEMPTS - i
    && r.engine.session.numOfRetry == n0 + Resends(r.out)
    && |Waits(r.out)| == Resends(r.out) + (if r.value == Aborted(Exhausted) then 0 else 1)
    && (r.value == Aborted(Exhausted) ==> Resends(r.out) == ACCEPT_ATTEMPTS - i)
  }

  lemma {:induction false} AcceptWaitTally(e: Engine, size: Sizer, i: nat)
    requires i <= ACCEPT_ATTEMPTS
    requires e.session.lastSent.Some?
    ensures AcceptTally(e.session.numOfRetry, i, AwaitAccept(e, size, i))
    decreases ACCEPT_ATTEMPTS - i, 4
  {
    if i < ACCEPT_ATTEMPTS {
      AcceptAfterTally(Receive(e, AcceptTimeout(i)), size, i);
    } else {
      ProjectShort(SendError(AckNeverReceived), SendError(AckNeverReceived));
    }
  }

  lemma {:induction false} AcceptAfterTally(got: Run<Inbound>, size: Sizer, i: nat)
    requires i < ACCEPT_ATTEMPTS
    requires got.engine.session.lastSent.Some?
    requires Fresh(got.out) == [] && Waits(got.out) == [AcceptTimeout(i)] && Resends(got.out) == 0
    requires got.value.Got? ==> got.engine.session.current == Some(got.value.m)
    ensures AcceptTally(got.engine.session.numOfRetry, i, AcceptAfter(got, size, i))
    decreases ACCEPT_ATTEMPTS - i, 3
  {
    if !got.value.PeerAbort? && !Acknowledges(got.value, got.engine.session.blockNumber) {
      AcceptResentTally(got.out, Resend(got.engine, size), size, i, got.engine.session.numOfRetry);
    }
  }

  lemma {:induction false} AcceptResentTally(pre: seq<Out>, sent: Run<bool>, size: Sizer, i: nat, n: nat)
    requires i < ACCEPT_ATTEMPTS
    requires sent.engine.session.lastSent.Some?
    requires Fresh(pre) == [] && Waits(pre) == [AcceptTimeout(i)] && Resends(pre) == 0
    requires Fresh(sent.out) == [] && Waits(sent.out) == [] && Resends(sent.out) == (if sent.value then 1 else 0)
    requires sent.engine.session.numOfRetry == n
    ensures AcceptTally(n, i, AcceptResent(pre, sent, size, i))
    decreases ACCEPT_ATTEMPTS - i, 2
  {
    WaitsAppend(pre, sent.out);
    ResendsAppend(pre, sent.out);
    if sent.value {
      AcceptRetriedTally(pre, sent, size, i, n);
    } else {
      RefusedAcceptTally(n, i, pre + sent.out, sent.engine);
      assert AcceptResent(pre, sent, size, i) == Run(sent.engine, pre + sent.out, Aborted(Refused));
    }
  }

  lemma {:induction false} AcceptRetriedTally(pre: seq<Out>, sent: Run<bool>, size: Sizer, i: nat, n: nat)
    requires i < ACCEPT_ATTEMPTS
    requires sent.engine.session.lastSent.Some? && sent.value
    requires Fresh(pre) == [] && Fresh(sent.out) == []
    requires Waits(pre + sent.out) == [AcceptTimeout(i)] && Resends(pre + sent.out) == 1
    requires sent.engine.session.numOfRetry == n
    ensures AcceptTally(n, i, AcceptResent(pre, sent, size, i))
    decreases ACCEPT_ATTEMPTS - i, 1
  {
    var counted := WithRetry(sent.engine, n + 1);
    FreshAppend(pre, sent.out);
    AcceptRetryTally(pre + sent.out, counted, size, i, n);
    assert AcceptResent(pre, sent, size, i) == AcceptRetry(pre + sent.out, counted, size, i);
  }

  lemma {:induction false} AcceptRetryTally(pre: seq<Out>, counted: Engine, size: Sizer, i: nat, n: nat)
    requires i < ACCEPT_ATTEMPTS
    requires counted.session.lastSent.Some? && counted.session.numOfRetry == n + 1
    requires Fresh(pre) == [] && Waits(pre) == [AcceptTimeout(i)] && Resends(pre) == 1
    ensures AcceptTally(n, i, AcceptRetry(pre, counted, size, i))
    decreases ACCEPT_ATTEMPTS - i, 0
  {
    AcceptWaitTally(counted, size, i + 1);
    AcceptTallyStep(n, i, pre, AwaitAccept(counted, size, i + 1));
    AcceptRetryUnfold(pre, counted, size, i);
  }

  lemma AcceptRetryUnfold(pre: seq<Out>, counted: Engine, size: Sizer, i: nat)
    requires i < ACCEPT_ATTEMPTS
    requires counted.session.lastSent.Some? && Fresh(pre) == []
    ensures AcceptRetry(pre, counted, size, i) == After(pre, AwaitAccept(counted, size, i + 1))
  {
  }

  /** A refused resend after a failed acceptance wait keeps the tally. */
  lemma RefusedAcceptTally(n: nat, i: nat, o: seq<Out>, e: Engine)
    requires i < ACCEPT_ATTEMPTS
    requires Waits(o) == [AcceptTimeout(i)] && Resends(o) == 0 && e.session.numOfRetry == n
    ensures AcceptTally(n, i, Run(e, o, Aborted(Refused)))
  {
  }

  /** One failed attempt (its wait and one resend, in `pre`) followed by the
      rest of the wait keeps the tally. */
  lemma AcceptTallyStep(n: nat, i: nat, pre: seq<Out>, next: Run<Outcome>)
    requires i < ACCEPT_ATTEMPTS
    requires Waits(pre) == [AcceptTimeout(i)] && Resends(pre) == 1
    requires AcceptTally(n + 1, i + 1, next)
    ensures AcceptTally(n, i, After(pre, next))
  {
    ProjectAppend(pre, next.out);
  }

  /** An exhausted acceptance wait waited 50, 100, 200, 400 and 800 ms and
      resent the request after each of them. */
  lemma ExhaustedAcceptWaitsDoubling(e: Engine, size: Sizer)
    requires e.session.lastSent.Some?
    ensures var r := AwaitAccept(e, size, FIRST_ATTEMPT);
      r.value == Aborted(Exhausted) ==>
        && Waits(r.out) == [50, 100, 200, 400, 800]
        && Resends(r.out) == ACCEPT_ATTEMPTS
  {
    var r := AwaitAccept(e, size, FIRST_ATTEMPT);
    AcceptWaitTally(e, size, FIRST_ATTEMPT);
    if r.value == Aborted(Exhausted) {
      ExhaustedAcceptTally(e.session.numOfRetry, r);
    }
  }

  lemma ExhaustedAcceptTally(n0: nat, r: Run<Outcome>)
    requires AcceptTally(n0, FIRST_ATTEMPT, r) && r.value == Aborted(Exhausted)
    ensures Waits(r.out) == [50, 100, 200, 400, 800]
    ensures Resends(r.out) == ACCEPT_ATTEMPTS
  {
    AcceptWaitsDouble();
  }

  /** When the request last sent passed the size check, the acceptance
      wait's resends are never refused; under total loss it is exhausted. */
  lemma {:induction false} AcceptWaitOutcome(e: Engine, size: Sizer, i: nat)
    requires i <= ACCEPT_ATTEMPTS
    requires e.session.lastSent.Some? && Fits(e.session, size)
    ensures AwaitAccept(e, size, i).value != Aborted(Refused)
    ensures Silent(e.script) ==> AwaitAccept(e, size, i).value == Aborted(Exhausted)
    decreases ACCEPT_ATTEMPTS - i, 3
  {
    if i < ACCEPT_ATTEMPTS {
      if Silent(e.script) {
        SilentRest(e.script);
      }
      AcceptAfterOutcome(Receive(e, AcceptTimeout(i)), size, i);
    }
  }

  lemma {:induction false} AcceptAfterOutcome(got: Run<Inbound>, size: Sizer, i: nat)
    requires i < ACCEPT_ATTEMPTS
    requires got.engine.session.lastSent.Some? && Fits(got.engine.session, size)
    requires Fresh(got.out) == []
    requires got.value.Got? ==> got.engine.session.current == Some(got.value.m)
    ensures AcceptAfter(got, size, i).value != Aborted(Refused)
    ensures got.value == Nothing && Silent(got.engine.script) ==> AcceptAfter(got, size, i).value == Aborted(Exhausted)
    decreases ACCEPT_ATTEMPTS - i, 2
  {
    if !got.value.PeerAbort? && !Acknowledges(got.value, got.engine.session.blockNumber) {
      AcceptResentOutcome(got.out, Resend(got.engine, size), size, i);
    }
  }

  lemma {:induction false} AcceptResentOutcome(pre: seq<Out>, sent: Run<bool>, size: Sizer, i: nat)
    requires i < ACCEPT_ATTEMPTS
    requires sent.engine.session.lastSent.Some? && Fits(sent.engine.session, size) && sent.value
    requires Fresh(pre) == [] && Fresh(sent.out) == []
    ensures AcceptResent(pre, sent, size, i).value != Aborted(Refused)
    ensures Silent(sent.engine.script) ==> AcceptResent(pre, sent, size, i).value == Aborted(Exhausted)
    decreases ACCEPT_ATTEMPTS - i, 1
  {
    var counted := WithRetry(sent.engine, sent.engine.session.numOfRetry + 1);
    FreshAppend(pre, sent.out);
    AcceptRetryOutcome(pre + sent.out, counted, size, i);
    assert AcceptResent(pre, sent, size, i) == AcceptRetry(pre + sent.out, counted, size, i);
  }

  lemma {:induction false} AcceptRetryOutcome(pre: seq<Out>, counted: Engine, size: Sizer, i: nat)
    requires i < ACCEPT_ATTEMPTS
    requires counted.session.lastSent.Some? && Fits(counted.session, size)
    requires Fresh(pre) == []
    ensures AcceptRetry(pre, counted, size, i).value != Aborted(Refused)
    ensures Silent(counted.script) ==> AcceptRetry(pre, counted, size, i).value == Aborted(Exhausted)
    decreases ACCEPT_ATTEMPTS - i, 0
  {
    AcceptWaitOutcome(counted, size, i + 1);
  }

  // ---------------------------------------------------------------------------
  // sendFile

  function Payloads(ms: seq<Message>): (ps: seq<seq<byte>>)
    ensures |ps| == |ms|
    ensures forall j :: 0 <= j < |ms| ==> ps[j] == ms[j].data
  {
    seq(|ms|, j requires 0 <= j < |ms| => ms[j].data)
  }

  /** A completed `sendFile` has put on the wire, as new messages, exactly
      |file| / 1000 + 1 DATA blocks numbered consecutively after the block
      number it started from; all but the last carry 1000 bytes, the last
      fewer, and their payloads concatenate to the file. */
  lemma SendFileDelivers(e: Engine, size: Sizer, file: seq<byte>)
    ensures var r := SendFile(e, size, file);
      var sent := Fresh(r.out);
      r.value == Completed ==>
      && |sent| == |file| / MAX_DATA_SIZE + 1
      && (forall j :: 0 <= j < |sent| ==> sent[j].opCode == DATA && sent[j].blockNum == e.session.blockNumber + 1 + j)
      && (forall j :: 0 <= j < |sent| - 1 ==> |sent[j].data| == MAX_DATA_SIZE)
      && |sent[|sent| - 1].data| < MAX_DATA_SIZE
      && Concat(Payloads(sent)) == file
  {
    var cs := Chunks(file);
    ChunksShape(file);
    DataBlocksNumbered(e.session.blockNumber, cs);
    assert Payloads(DataBlocks(e.session.blockNumber, cs)) == cs;
  }

  /** Under total loss the data loop sends block 1 of the file once as a new
      message, waits out its ACK wait, and stops with "Ack never received":
      no further block is sent. */
  lemma TotalLossStopsAfterFirstBlock(e: Engine, size: Sizer, file: seq<byte>)
    requires Silent(e.script)
    requires size(DataMessage(e.session.blockNumber + 1, Chunks(file)[0])) <= MAX_PACKET_SIZE
    ensures var r := SendChunks(e, size, file);
      && r.value == Aborted(Exhausted)
      && Fresh(r.out) == [DataMessage(e.session.blockNumber + 1, Chunks(file)[0])]
      && EndsWith(r.out, SendError(AckNeverReceived))
  {
    var b := e.session.blockNumber + 1;
    var data := DataMessage(b, Chunks(file)[0]);
    var sent := SendMessage(e.(session := e.session.(blockNumber := b)), size, data, false);
    assert sent == Run(Engine(e.session.(blockNumber := b, lastSent := Some(data)), e.script), [Send(data, false)], true);
    var acked := AwaitAck(sent.engine, size, 0);
    assert acked.value == Aborted(Exhausted) by {
      AckWaitOutcome(sent.engine, size, 0);
    }
    assert SendChunks(e, size, file) == BlockAfter(sent.out, acked, size, b, file) by {
      SendChunksUnfold(e, size, file);
    }
    FreshAppend(sent.out, acked.out);
  }

  // ---------------------------------------------------------------------------
  // Success: the ACK that ends a wait, and a lossless transfer

  /** An ACK of the current block from an admitted source ends the ACK wait
      after one wait, with the ACK as the current inbound message. */
  lemma AckArrives(e: Engine, size: Sizer, i: nat, a: Address, p: int)
    requires i < SEND_ATTEMPTS && e.session.lastSent.Some?
    requires NextEvent(e.script) == Packet(a, p, Some(AckMessage(e.session.blockNumber))) && Admits(e.session, a, p)
    ensures AwaitAck(e, size, i)
         == Run(Engine(Roll(Learn(e.session, a, p), AckMessage(e.session.blockNumber)), Rest(e.script)),
                [Wait(TIMEOUT_SEND)], Completed)
  {
    var got := Receive(e, TIMEOUT_SEND);
    assert got.value == Got(AckMessage(e.session.blockNumber));
  }

  /** An ACK of the current block from an admitted source ends the
      acceptance wait after one wait of attempt i's timeout. */
  lemma AcceptArrives(e: Engine, size: Sizer, i: nat, a: Address, p: int)
    requires i < ACCEPT_ATTEMPTS && e.session.lastSent.Some?
    requires NextEvent(e.script) == Packet(a, p, Some(AckMessage(e.session.blockNumber))) && Admits(e.session, a, p)
    ensures AwaitAccept(e, size, i)
         == Run(Engine(Roll(Learn(e.session, a, p), AckMessage(e.session.blockNumber)), Rest(e.script)),
                [Wait(AcceptTimeout(i))], Completed)
  {
    var got := Receive(e, AcceptTimeout(i));
    assert got.value == Got(AckMessage(e.session.blockNumber));
  }

  /** Every message of `ms` passes the size check. */
  ghost predicate AllFit(size: Sizer, ms: seq<Message>)
  {
    forall j :: 0 <= j < |ms| ==> size(ms[j]) <= MAX_PACKET_SIZE
  }

  /** What the sender does when nothing is lost: each DATA block of `ms` is
      sent once, as a new message, followed by one wait for its ACK. */
  function LosslessTrace(ms: seq<Message>): (o: seq<Out>)
    ensures |o| == 2 * |ms|
  {
    if |ms| == 0 then [] else [Send(ms[0], false), Wait(TIMEOUT_SEND)] + LosslessTrace(ms[1..])
  }

  /** One iteration of the data loop whose first block was sent. */
  lemma SendChunksUnfold(e: Engine, size: Sizer, rest: seq<byte>)
    ensures var b := e.session.blockNumber + 1;
      var sent := SendMessage(e.(session := e.session.(blockNumber := b)), size, DataMessage(b, Chunks(rest)[0]), false);
      sent.value ==> SendChunks(e, size, rest) == BlockAfter(sent.out, AwaitAck(sent.engine, size, 0), size, b, rest)
  {
    var chunk := if |rest| < MAX_DATA_SIZE then rest else rest[..MAX_DATA_SIZE];
    assert chunk == Chunks(rest)[0];
  }

  /** One iteration of the data loop whose block fits and whose ACK comes
      next from an admitted source: the block is sent once as a new message
      and one wait ends with its ACK. */
  lemma FirstBlockAcked(e: Engine, size: Sizer, a: Address, p: int, rest: seq<byte>) returns (next: Engine)
    requires Admits(e.session, a, p)
    requires size(DataMessage(e.session.blockNumber + 1, Chunks(rest)[0])) <= MAX_PACKET_SIZE
    requires NextEvent(e.script) == Packet(a, p, Some(AckMessage(e.session.blockNumber + 1)))
    ensures next.session.blockNumber == e.session.blockNumber + 1 && Admits(next.session, a, p)
    ensures next.script == Rest(e.script)
    ensures SendChunks(e, size, rest)
         == BlockAfter([Send(DataMessage(e.session.blockNumber + 1, Chunks(rest)[0]), false)],
                       Run(next, [Wait(TIMEOUT_SEND)], Completed), size, e.session.blockNumber + 1, rest)
  {
    var b := e.session.blockNumber + 1;
    var data := DataMessage(b, Chunks(rest)[0]);
    var s1 := e.session.(blockNumber := b, lastSent := Some(data));
    var sent := SendMessage(e.(session := e.session.(blockNumber := b)), size, data, false);
    assert sent == Run(Engine(s1, e.script), [Send(data, false)], true);
    next := Engine(Roll(Learn(s1, a, p), AckMessage(b)), Rest(e.script));
    assert AwaitAck(sent.engine, size, 0) == Run(next, [Wait(TIMEOUT_SEND)], Completed) by {
      AckArrives(sent.engine, size, 0, a, p);
    }
    SendChunksUnfold(e, size, rest);
  }

  /** The rest of an iteration whose ACK wait completed. */
  lemma BlockAfterCompleted(pre: seq<Out>, acked: Run<Outcome>, size: Sizer, b: nat, rest: seq<byte>, o: seq<Out>)
    requires Fresh(pre) == [DataMessage(b, Chunks(rest)[0])]
    requires Fresh(acked.out) == [] && acked.engine.session.blockNumber == b && acked.value == Completed
    requires o == pre + acked.out
    ensures |rest| < MAX_DATA_SIZE ==> BlockAfter(pre, acked, size, b, rest) == Run(acked.engine, o, Completed)
    ensures |rest| >= MAX_DATA_SIZE ==>
              BlockAfter(pre, acked, size, b, rest) == After(o, SendChunks(acked.engine, size, rest[MAX_DATA_SIZE..]))
  {
  }

  /** One lossless iteration of the data loop: block b+1 sent once and
      acknowledged after one wait, then the loop on the rest of the file, or
      completion after a short block. */
  lemma LosslessStep(e: Engine, size: Sizer, a: Address, p: int, rest: seq<byte>) returns (next: Engine)
    requires Admits(e.session, a, p)
    requires size(DataMessage(e.session.blockNumber + 1, Chunks(rest)[0])) <= MAX_PACKET_SIZE
    requires NextEvent(e.script) == Packet(a, p, Some(AckMessage(e.session.blockNumber + 1)))
    ensures next.session.blockNumber == e.session.blockNumber + 1 && Admits(next.session, a, p)
    ensures next.script == Rest(e.script)
    ensures var pre := [Send(DataMessage(e.session.blockNumber + 1, Chunks(rest)[0]), false), Wait(TIMEOUT_SEND)];
      && (|rest| < MAX_DATA_SIZE ==> SendChunks(e, size, rest) == Run(next, pre, Completed))
      && (|rest| >= MAX_DATA_SIZE ==> SendChunks(e, size, rest) == After(pre, SendChunks(next, size, rest[MAX_DATA_SIZE..])))
  {
    next := FirstBlockAcked(e, size, a, p, rest);
    var data := Send(DataMessage(e.session.blockNumber + 1, Chunks(rest)[0]), false);
    ProjectShort(data, Wait(TIMEOUT_SEND));
    BlockAfterCompleted([data], Run(next, [Wait(TIMEOUT_SEND)], Completed), size, e.session.blockNumber + 1, rest,
                        [data, Wait(TIMEOUT_SEND)]);
  }

  lemma AllFitTail(size: Sizer, ms: seq<Message>)
    requires |ms| > 0 && AllFit(size, ms)
    ensures size(ms[0]) <= MAX_PACKET_SIZE && AllFit(size, ms[1..])
  {
    forall j | 0 <= j < |ms[1..]|
      ensures size(ms[1..][j]) <= MAX_PACKET_SIZE
    {
      assert ms[1..][j] == ms[j + 1];
    }
  }

  /** The data loop on lossless, in-order ACKs of its blocks from an admitted
      source: it completes, consuming every ACK, and sends each block once
      and waits once for its ACK, in order. */
  lemma {:induction false} LosslessSend(e: Engine, size: Sizer, a: Address, p: int, rest: seq<byte>)
    requires Admits(e.session, a, p)
    requires AllFit(size, DataBlocks(e.session.blockNumber, Chunks(rest)))
    requires e.script == Deliver(a, p, AcksOf(DataBlocks(e.session.blockNumber, Chunks(rest))))
    ensures var r := SendChunks(e, size, rest);
      && r.value == Completed
      && r.out == LosslessTrace(DataBlocks(e.session.blockNumber, Chunks(rest)))
      && r.engine.script == []
    decreases |rest|
  {
    var ms := DataBlocks(e.session.blockNumber, Chunks(rest));
    BlocksHead(e.session.blockNumber, rest);
    DeliverHead(a, p, AcksOf(ms));
    AllFitTail(size, ms);
    var next := LosslessStep(e, size, a, p, rest);
    if |rest| >= MAX_DATA_SIZE {
      LosslessSend(next, size, a, p, rest[MAX_DATA_SIZE..]);
    }
  }

  /** `sendFile` when nothing is lost: after the ACK 0 that accepts a write
      request issued by this side (none otherwise), the ACKs of its blocks in
      order make it complete, sending each block once and waiting once for
      its ACK. */
  lemma LosslessSendFile(e: Engine, size: Sizer, a: Address, p: int, file: seq<byte>)
    requires Admits(e.session, a, p)
    requires AllFit(size, DataBlocks(e.session.blockNumber, Chunks(file)))
    requires var acks := AcksOf(DataBlocks(e.session.blockNumber, Chunks(file)));
      e.script == Deliver(a, p, if AwaitsAcceptance(e.session) then [AckMessage(e.session.blockNumber)] + acks else acks)
    ensures var r := SendFile(e, size, file);
      var trace := LosslessTrace(DataBlocks(e.session.blockNumber, Chunks(file)));
      && r.value == Completed
      && r.out == (if AwaitsAcceptance(e.session) then [Wait(TIMEOUT_SEND)] + trace else trace)
      && r.engine.script == []
  {
    var acks := AcksOf(DataBlocks(e.session.blockNumber, Chunks(file)));
    if AwaitsAcceptance(e.session) {
      var ms := [AckMessage(e.session.blockNumber)] + acks;
      DeliverHead(a, p, ms);
      assert ms[1..] == acks;
      AcceptArrives(e, size, 0, a, p);
      var accepted := AwaitAccept(e, size, 0);
      LosslessSend(accepted.engine, size, a, p, file);
    } else {
      LosslessSend(e, size, a, p, file);
    }
  }
}

=== FILE: transport.dfy ===
/** The session state of one transfer and the two primitives every wait and
    every send goes through: `receiveMessage` and `sendMessage`.

    The socket is replaced by a script: each receive consumes the next
    inbound event of the script (an exhausted script behaves as an endless
    run of timeouts), and everything the engine does on the wire is appended
    to an output trace. */
module Transport {
  import opened Net
  import opened Messages

  /** What one receive with a deadline observes. `msg` is the parse result of
      the datagram's bytes: `None` when they are not a well-formed message. */
  datatype Event =
    | Timeout
    | Packet(addr: Address, port: int, msg: Option<Message>)

  /** One observable action of the engine. `resend` is true exactly when the
      engine retransmits the message it last sent. */
  datatype Out =
    | Wait(timeout: nat)
    | Send(m: Message, resend: bool)
    | SendError(text: ErrorText)

  /** The fields of one TFTP instance. `destPort == NO_PORT` means the peer's
      port is not yet known. */
  datatype Session = Session(
    destAddress: Option<Address>,
    destPort: int,
    blockNumber: nat,
    numOfRetry: nat,
    lastSent: Option<Message>,
    current: Option<Message>,
    last: Option<Message>)

  datatype Engine = Engine(session: Session, script: seq<Event>)

  /** The result of running an operation: the new engine, what it put on the
      wire (only this call's part), and its value. */
  datatype Run<T> = Run(engine: Engine, out: seq<Out>, value: T)

  /** What `receiveMessage` hands back: a message, null, or the exception an
      ERROR message raises. */
  datatype Inbound = Got(m: Message) | Nothing | PeerAbort(errMsg: string)

  datatype Reason = PeerError(errMsg: string) | Exhausted | Refused

  datatype Outcome = Completed | Aborted(reason: Reason)

  /** The length of a message's encoding (protobuf's `toByteArray().length`). */
  type Sizer = Message -> nat

  const NO_PORT: int := -1

  function NextEvent(script: seq<Event>): Event
  {
    if |script| == 0 then Timeout else script[0]
  }

  function Rest(script: seq<Event>): (r: seq<Event>)
    ensures |script| > 0 ==> |r| == |script| - 1
    ensures |script| == 0 ==> r == []
  {
    if |script| == 0 then [] else script[1..]
  }

  /** A script in which every wait times out: total loss. */
  predicate Silent(script: seq<Event>)
  {
    forall j :: 0 <= j < |script| ==> script[j] == Timeout
  }

  lemma SilentRest(script: seq<Event>)
    requires Silent(script)
    ensures NextEvent(script) == Timeout && Silent(Rest(script))
  {
    if |script| > 0 {
      assert script[0] == Timeout;
      assert forall j :: 0 <= j < |Rest(script)| ==> Rest(script)[j] == script[j + 1];
    }
  }

  /** The script of a lossless transfer: messages `ms`, in order, each from (a, p). */
  function Deliver(a: Address, p: int, ms: seq<Message>): (script: seq<Event>)
    ensures |script| == |ms|
  {
    if |ms| == 0 then [] else [Packet(a, p, Some(ms[0]))] + Deliver(a, p, ms[1..])
  }

  /** The first event of a lossless script, and the rest of it. */
  lemma DeliverHead(a: Address, p: int, ms: seq<Message>)
    requires |ms| > 0
    ensures NextEvent(Deliver(a, p, ms)) == Packet(a, p, Some(ms[0]))
    ensures Rest(Deliver(a, p, ms)) == Deliver(a, p, ms[1..])
  {
  }

  /** First contact fixes the peer: each of address and port is learned when unset. */
  function Learn(s: Session, a: Address, p: int): Session
  {
    s.(destAddress := if s.destAddress.None? then Some(a) else s.destAddress,
       destPort := if s.destPort == NO_PORT then p else s.destPort)
  }

  predicate FromPeer(s: Session, a: Address, p: int)
  {
    s.destAddress == Some(a) && s.destPort == p
  }

  /** A datagram from (a, p) passes the source filter once the peer is learned. */
  predicate Admits(s: Session, a: Address, p: int)
  {
    (s.destAddress.None? || s.destAddress == Some(a)) && (s.destPort == NO_PORT || s.destPort == p)
  }

  /** The rolling two-message history of inbound messages. */
  function Roll(s: Session, m: Message): Session
  {
    if s.current.None? then s.(current := Some(m)) else s.(last := s.current, current := Some(m))
  }

  /** Everything but the learned peer and the inbound history is the same. */
  predicate SameCounters(s: Session, t: Session)
  {
    s.blockNumber == t.blockNumber && s.numOfRetry == t.numOfRetry && s.lastSent == t.lastSent
  }

  /** `receiveMessage`: one wait of the given timeout. */
  function Receive(e: Engine, timeout: nat): (r: Run<Inbound>)
    ensures r.engine.script == Rest(e.script)
    ensures r.out == (if NextEvent(e.script).Packet?
                         && Admits(e.session, NextEvent(e.script).addr, NextEvent(e.script).port)
                         && NextEvent(e.script).msg.None?
                      then [Wait(timeout), SendError(UnreadablePacket)] else [Wait(timeout)])
    ensures Waits(r.out) == [timeout] && Fresh(r.out) == [] && Resends(r.out) == 0
    ensures SameCounters(r.engine.session, e.session)
    ensures e.session.destAddress.Some? ==> r.engine.session.destAddress == e.session.destAddress
    ensures r.value.Got? <==>
              && NextEvent(e.script).Packet?
              && Admits(e.session, NextEvent(e.script).addr, NextEvent(e.script).port)
              && NextEvent(e.script).msg.Some?
              && NextEvent(e.script).msg.value.opCode != ERROR
    ensures r.value.Got? ==> r.value.m == NextEvent(e.script).msg.value
    ensures r.value.Got? ==> r.engine.session.current == Some(r.value.m) && r.engine.session.last == (if e.session.current.Some? then e.session.current else e.session.last)
    ensures !r.value.Got? ==> r.engine.session.current == e.session.current && r.engine.session.last == e.session.last
    ensures r.value.PeerAbort? <==>
              && NextEvent(e.script).Packet?
              && Admits(e.session, NextEvent(e.script).addr, NextEvent(e.script).port)
              && NextEvent(e.script).msg.Some?
              && NextEvent(e.script).msg.value.opCode == ERROR
  {
    ProjectShort(Wait(timeout), SendError(UnreadablePacket));
    var rest := Rest(e.script);
    match NextEvent(e.script)
    case Timeout => Run(Engine(e.session, rest), [Wait(timeout)], Nothing)
    case Packet(a, p, parsed) =>
      var s := Learn(e.session, a, p);
      if !FromPeer(s, a, p) then Run(Engine(s, rest), [Wait(timeout)], Nothing)
      else
        match parsed
        case None => Run(Engine(s, rest), [Wait(timeout), SendError(UnreadablePacket)], Nothing)
        case Some(m) =>
          if m.opCode == ERROR then Run(Engine(s, rest), [Wait(timeout)], PeerAbort(m.errMsg))
          else Run(Engine(Roll(s, m), rest), [Wait(timeout)], Got(m))
  }

  /** `sendMessage`: refuses an oversize message (and reports it in an ERROR
      message) and otherwise transmits it and remembers it as the last sent. */
  function SendMessage(e: Engine, size: Sizer, m: Message, resend: bool): (r: Run<bool>)
    ensures r.value <==> size(m) <= MAX_PACKET_SIZE
    ensures r.engine.script == e.script
    ensures r.value ==> r.engine.session == e.session.(lastSent := Some(m)) && r.out == [Send(m, resend)]
    ensures !r.value ==> r.engine == e && r.out == [SendError(PacketTooLarge(size(m)))]
    ensures Waits(r.out) == [] && Fresh(r.out) == (if r.value && !resend then [m] else [])
    ensures Resends(r.out) == (if r.value && resend then 1 else 0)
  {
    ProjectShort(Send(m, resend), SendError(PacketTooLarge(size(m))));
    ProjectShort(SendError(PacketTooLarge(size(m))), Send(m, resend));
    if size(m) > MAX_PACKET_SIZE then Run(e, [SendError(PacketTooLarge(size(m)))], false)
    else Run(Engine(e.session.(lastSent := Some(m)), e.script), [Send(m, resend)], true)
  }

  /** `sendMessage(lastMessageSent)`. */
  function Resend(e: Engine, size: Sizer): (r: Run<bool>)
    requires e.session.lastSent.Some?
    ensures r.engine.session == e.session && r.engine.script == e.script
    ensures r.value <==> Fits(e.session, size)
    ensures r.value ==> r.out == [Send(e.session.lastSent.value, true)]
    ensures Waits(r.out) == [] && Fresh(r.out) == [] && Resends(r.out) == (if r.value then 1 else 0)
  {
    SendMessage(e, size, e.session.lastSent.value, true)
  }

  /** The message last sent, if any, passed the size check. `sendMessage` only
      records a message it transmitted, so this always holds. */
  predicate Fits(s: Session, size: Sizer)
  {
    s.lastSent.Some? ==> size(s.lastSent.value) <= MAX_PACKET_SIZE
  }

  /** A run preceded by the actions `o`. */
  function After<T>(o: seq<Out>, r: Run<T>): Run<T>
  {
    Run(r.engine, o + r.out, r.value)
  }

  /** The last action of `o` is `x`. */
  predicate EndsWith(o: seq<Out>, x: Out)
  {
    |o| > 0 && o[|o| - 1] == x
  }

  lemma EndsWithAppend(a: seq<Out>, b: seq<Out>, x: Out)
    ensures EndsWith(b, x) ==> EndsWith(a + b, x)
  {
    if |b| > 0 {
      assert (a + b)[|a + b| - 1] == b[|b| - 1];
    }
  }

  function WithRetry(e: Engine, n: nat): Engine
  {
    e.(session := e.session.(numOfRetry := n))
  }

  // ---------------------------------------------------------------------------
  // Projections of an output trace

  /** The timeouts of the waits, in order. */
  function Waits(o: seq<Out>): seq<nat>
  {
    if |o| == 0 then [] else (if o[0].Wait? then [o[0].timeout] else []) + Waits(o[1..])
  }

  /** The messages sent for the first time, in order. */
  function Fresh(o: seq<Out>): seq<Message>
  {
    if |o| == 0 then [] else FreshOf(o[0]) + Fresh(o[1..])
  }

  function FreshOf(x: Out): seq<Message>
  {
    if x.Send? && !x.resend then [x.m] else []
  }

  /** The number of retransmissions. */
  function Resends(o: seq<Out>): nat
  {
    if |o| == 0 then 0 else (if o[0].Send? && o[0].resend then 1 else 0) + Resends(o[1..])
  }

  lemma {:induction false} WaitsAppend(a: seq<Out>, b: seq<Out>)
    ensures Waits(a + b) == Waits(a) + Waits(b)
    decreases |a|
  {
    if |a| == 0 {
      assert a + b == b;
    } else {
      assert (a + b)[0] == a[0];
      assert (a + b)[1..] == a[1..] + b;
      WaitsAppend(a[1..], b);
    }
  }

  lemma {:induction false} FreshAppend(a: seq<Out>, b: seq<Out>)
    ensures Fresh(a + b) == Fresh(a) + Fresh(b)
    decreases |a|
  {
    if |a| == 0 {
      assert a + b == b;
    } else {
      assert (a + b)[0] == a[0];
      assert (a + b)[1..] == a[1..] + b;
      FreshAppend(a[1..], b);
      calc {
        Fresh(a + b);
        FreshOf(a[0]) + Fresh(a[1..] + b);
        FreshOf(a[0]) + (Fresh(a[1..]) + Fresh(b));
        (FreshOf(a[0]) + Fresh(a[1..])) + Fresh(b);
      }
    }
  }

  lemma {:induction false} ResendsAppend(a: seq<Out>, b: seq<Out>)
    ensures Resends(a + b) == Resends(a) + Resends(b)
    decreases |a|
  {
    if |a| == 0 {
      assert a + b == b;
    } else {
      assert (a + b)[0] == a[0];
      assert (a + b)[1..] == a[1..] + b;
      ResendsAppend(a[1..], b);
    }
  }

  lemma ProjectAppend(a: seq<Out>, b: seq<Out>)
    ensures Waits(a + b) == Waits(a) + Waits(b)
    ensures Fresh(a + b) == Fresh(a) + Fresh(b)
    ensures Resends(a + b) == Resends(a) + Resends(b)
  {
    WaitsAppend(a, b);
    FreshAppend(a, b);
    ResendsAppend(a, b);
  }

  /** The projections of a one- or two-action trace. */
  lemma ProjectShort(x: Out, y: Out)
    ensures Waits([x]) == (if x.Wait? then [x.timeout] else [])
    ensures Fresh([x]) == FreshOf(x)
    ensures Resends([x]) == (if x.Send? && x.resend then 1 else 0)
    ensures Waits([x, y]) == Waits([x]) + Waits([y])
    ensures Fresh([x, y]) == Fresh([x]) + Fresh([y])
    ensures Resends([x, y]) == Resends([x]) + Resends([y])
  {
    assert [x][1..] == [];
    assert [x, y][1..] == [y];
    assert [y][1..] == [];
  }

  // ---------------------------------------------------------------------------
  // Properties of receiveMessage

  /** The first datagram of a session with no peer fixes the peer to its source. */
  lemma FirstContactLearnsPeer(e: Engine, timeout: nat)
    requires e.session.destAddress.None? && e.session.destPort == NO_PORT
    requires NextEvent(e.script).Packet?
    ensures FromPeer(Receive(e, timeout).engine.session, NextEvent(e.script).addr, NextEvent(e.script).port)
  {
  }

  /** Once the peer is known, a datagram from anywhere else changes nothing
      but the script: the whole session is as before. */
  lemma ForeignDatagramIgnored(e: Engine, timeout: nat)
    requires e.session.destAddress.Some? && e.session.destPort != NO_PORT
    requires NextEvent(e.script).Packet?
    requires !FromPeer(e.session, NextEvent(e.script).addr, NextEvent(e.script).port)
    ensures Receive(e, timeout).engine.session == e.session
    ensures Receive(e, timeout).value == Nothing
    ensures Receive(e, timeout).out == [Wait(timeout)]
  {
  }

  /** Two accepted messages in a row leave them as current and previous. */
  lemma RollKeepsTwoMostRecent(s: Session, m1: Message, m2: Message)
    ensures Roll(Roll(s, m1), m2).current == Some(m2)
    ensures Roll(Roll(s, m1), m2).last == Some(m1)
    ensures SameCounters(Roll(Roll(s, m1), m2), s)
  {
  }
}
